=== FILE: README.md ===
# Slingshot voice agent core, modelled in Dafny

This project models the conversational core of the Slingshot voice agent, a
fork of vocode-core. It has three parts.

**The dialog graph.** This is the LangGraph state machine that moves one
caller turn between the primary assistant, the payment skill and their tool
nodes:
- the per-call state and the reducers that merge node updates into it;
- the dialog stack;
- the adapter nodes (entry, leave-skill, tool-error fallback, route-by-name, deterministic rewrap);
- the routing functions;
- the payment and live-agent tools;
- the node and edge set that `_initialize_graph` declares.

A graph step is an explicit transition function `DefaultGraph.Step`. The
model call, the tool results, the call's language and the `uuid4` values a
step uses are given as an environment `Env`.

**The streaming sentence segmenter.** This is the async generator in
`llm_generator.py` that turns one turn's event stream into the sentences
handed to speech synthesis. It covers:
- the sentence-boundary regular expression;
- the `$` hold-back;
- the leak filter with its filler pool;
- deterministic tool results and the `sensitive_action` shortcut;
- the final flush;
- `chat_completion`'s first-sentence `anext`.

The generator is a pure fold over a finite `seq<Event>`. `random.choice` is
an oracle sequence of picks: the i-th draw takes index `picks[i] % |pool|`,
so every outcome of `random.choice` can be represented.

**Call configuration.** This covers:
- the four-entry language profile table;
- `CallConfig` construction from the environment;
- the `get_language_config` override rule;
- the `Singleton` metaclass's one-instance rule.

The environment variables and `uuid4` are parameters.

The files, one module each:
- `wrappers.dfy` holds Option and Result.
- `text.dfy` holds Python's `in`, `replace`, `strip` and `split(sep)[-1]` with their exact semantics.
- `split_pattern.dfy` holds the regex and `re.search`.
- `llm_generator.dfy` holds the segmenter.
- `segmenter_properties.dfy` and `segmenter_examples.dfy` hold the segmenter's properties and worked turns.
- `graph_helpers.dfy` and `default_graph.dfy` hold the graph.
- `call_config.dfy` holds the configuration.

Where the code and its documented intent differ, the model follows the code:
- **Leaving the payment skill pushes.** `pop_dialog_state` returns the dialog state `"primary_assistant"`, which the stack reducer appends. So entering and then leaving the skill grows the stack by two and does not restore it (`DefaultGraph.EnterThenLeave`). Only a literal `"pop"` would pop.
- **A `$` blocks every split.** A `$` anywhere in the buffer blocks splitting for the rest of the turn, not only while an amount is incomplete. Both `"Your total is $300.00. Anything else?"` and `"It costs $5 today. Thanks."` come out as a single sentence (`SegmenterExamples.TotalWithDecimalIsOneSentence`, `SegmenterExamples.WholeDollarIsOneSentence`).
- **A yielded sentence can contain the marker.** The final flush does not remove `DETERMINISTIC`. In addition, `str.replace` makes one pass, so removing the marker can leave a new one behind (`SegmenterExamples.MarkerCanSurviveRemoval`).
- **A filler can be cut short.** A leaking buffer is replaced by a filler, but the cut index was computed on the old buffer, so a filler longer than that index is truncated (`LlmGenerator.LeakTruncatesFiller`). For `"Ok. Then functions.x"` with the first filler drawn, only `"Let"` is spoken, and `"me check that for you"` stays in the buffer (`SegmenterExamples.FillerCutShort`).
- **The validation tool never routes back.** Both fields of its pydantic schema are required, and a parsed amount is always a float. So a call either fails validation or thanks the customer for the amount, and the `"ROUTE CompleteOrEscalate"` fallback is unreachable (`DefaultGraph.ValidateNeverRoutesBack`). No other tool in this core returns that text either. `DefaultGraph.RouteBackLeavesSkill` therefore describes routing that only a tool defined elsewhere could trigger.
- **A failed profile request still creates the shared instance.** The metaclass stores a new `CallConfig` before `get_language_config` looks up its key. A request that raises KeyError therefore leaves that instance behind, and the next `CallConfig()` returns it instead of building a fresh one (`CallConfig.RaisedLookupKeepsInstance`). `CallConfig.Calls` models a run in which every such exception is caught, so later calls see what the failed one stored.
- **Nothing routes to `sensitive_action`.** No edge leads to that node, so the segmenter's `sensitive_action` shortcut never fires for this graph (`DefaultGraph.StepKeepsInvariant`, `DefaultGraph.Turn`).

## Model

| member | source | states |
|---|---|---|
| GraphHelpers.UpdateDialogStack | slingshot_graphs/graph_helpers.py:25-32 | no value keeps the stack; `"pop"` drops the top and leaves an empty stack empty; any other value is pushed on top of the unchanged stack |
| GraphHelpers.PushThenPop | slingshot_graphs/graph_helpers.py:25-32 | a pushed dialog is the current one, and a push followed by `"pop"` gives the original stack back |
| GraphHelpers.Reducer | slingshot_graphs/graph_helpers.py:35-39 | the agents list only grows, by exactly the value given, at its end |
| GraphHelpers.Apply | slingshot_graphs/graph_helpers.py:49-56 | merging an update keeps the old messages as a prefix followed by exactly the update's; a key the update leaves unset keeps its value; a set agent is appended to the agent list; a set dialog state is pushed, except `"pop"`, which drops the top (and leaves an empty stack empty); a set `user_info` replaces the old one |
| GraphHelpers.LastDialogState | slingshot_graphs/graph_helpers.py:138-146 | the top of the stack, or `"primary_assistant"` for an empty stack |
| GraphHelpers.PopDialogState | slingshot_graphs/graph_helpers.py:58-76 | exactly one resume tool message, answering the first tool call, iff the last message has tool calls, and none otherwise; the dialog state is always `"primary_assistant"` |
| GraphHelpers.LeaveSkillPushes | slingshot_graphs/graph_helpers.py:58-76 | after the leave-skill node the stack is one longer and has the primary assistant on top: it pushes rather than pops |
| GraphHelpers.HandleToolError | slingshot_graphs/graph_helpers.py:79-91 | one tool message per tool call of the last message, in order, each carrying the `Error: <repr>` text and its call's id |
| GraphHelpers.ToolErrorsAnswerEveryCall | slingshot_graphs/graph_helpers.py:79-91 | the ids the error messages answer are exactly the call ids, in call order |
| GraphHelpers.SpecificEntryNode | slingshot_graphs/graph_helpers.py:99-115 | a single tool message addressed to the first tool call's id, and the new dialog state for the stack |
| GraphHelpers.EntryNode | slingshot_graphs/graph_helpers.py:121-135 | the same, with the message naming the assistant |
| GraphHelpers.EntryMakesCurrent | slingshot_graphs/graph_helpers.py:99-115 | after an entry node, the skill is pushed and current, and the last message answers the tool call that asked for it |
| GraphHelpers.UserInfo | slingshot_graphs/graph_helpers.py:118-119 | the human-input node resets the user info and leaves every other part of the state as it was |
| GraphHelpers.AssistantCall | slingshot_graphs/graph_helpers.py:165-189 | exactly one message, the model's reply or, when the model raised, the fixed apology; the agent name is recorded either way |
| GraphHelpers.RouteToolResponse | slingshot_graphs/graph_helpers.py:206-224 | one empty AI message with exactly one argument-free tool call carrying the drawn ids; the name it calls contains no `"ROUTE "` |
| GraphHelpers.RoutedToolName | slingshot_graphs/graph_helpers.py:208-209 | the called name is the whole text when it has no `"ROUTE "`, and otherwise exactly what follows an occurrence of it at the end of the text |
| GraphHelpers.RouteNamesTool | slingshot_graphs/graph_helpers.py:208-209 | the text `"ROUTE <name>"` calls `<name>` |
| GraphHelpers.ToolMsgToAiMsg | slingshot_graphs/graph_helpers.py:226-234 | the last message's text is re-sent as a single AI message with the drawn id |
| GraphHelpers.RouteSensitiveTools | slingshot_graphs/graph_helpers.py:236-253 | text with `DETERMINISTIC` goes to the rewrap node even when it also has `ROUTE`; otherwise text with `ROUTE` goes to route-by-name; otherwise the current dialog |
| GraphHelpers.LiveAgentString | slingshot_graphs/graph_helpers.py:255-256 | the English goodbye for language `en`, and the Korean one for any other language |
| DefaultGraph.NodeNamesResolve | slingshot_graphs/default_graph.py:217-288 | the ten declared node names are distinct, so every name leads back to its node |
| DefaultGraph.RoutePrimaryAssistant | slingshot_graphs/default_graph.py:47-58 | the turn ends iff there are no tool calls; it enters the payment skill iff the first call is `ToMakePaymentAssistant`; otherwise it goes to the primary tools |
| DefaultGraph.RouteMakePayment | slingshot_graphs/default_graph.py:61-70 | the turn ends iff there are no tool calls; it leaves the skill iff any call, not only the first, is `CompleteOrEscalate`; otherwise it goes to the payment tools |
| DefaultGraph.RouteToWorkflow | slingshot_graphs/default_graph.py:72-76 | a new human turn resumes the dialog on top of the stack, or the primary assistant when the stack is empty |
| DefaultGraph.RouteRouteToolResponse | slingshot_graphs/default_graph.py:78-85 | a call name the router table knows goes to its node; any other name resumes the current dialog |
| DefaultGraph.TransferToLiveAgent | slingshot_graphs/default_graph.py:105-108 | the live-agent result starts with, and so contains, the deterministic marker |
| DefaultGraph.ValidatePaymentAmountDate | slingshot_graphs/default_graph.py:111-149 | the schema parse raises exactly when the amount or the date is missing (or the amount is not a float); otherwise the result is never empty |
| DefaultGraph.ValidateNeverRoutesBack | slingshot_graphs/default_graph.py:111-149 | the tool never returns `"ROUTE CompleteOrEscalate"`: it raises on a missing field, and otherwise begins by thanking for the amount, adding the date sentence exactly when the date is not empty, `"None"` or `"none"` |
| DefaultGraph.SensitiveActionNode | slingshot_graphs/default_graph.py:39-44 | one fixed AI message and the agent tag `DETERMINISTIC ACTION`; the dialog stack is untouched |
| DefaultGraph.ToolNode | slingshot_graphs/graph_helpers.py:93-96 | for the tools the node binds: one tool message per call of the last message, in order, answering that call's id, whether the tools ran or raised; the update sets no other key |
| DefaultGraph.ToolResult | slingshot_graphs/default_graph.py:150-160 | a node that binds the live-agent transfer (only the primary assistant's tool node does) answers it with a result that starts with the deterministic marker; any other call, including the transfer at a node that does not bind it, gets what the environment returned |
| DefaultGraph.ToolResults | slingshot_graphs/graph_helpers.py:93-96 | when the tools run, the i-th tool message answers the i-th call with that call's result |
| DefaultGraph.Resolve | slingshot_graphs/default_graph.py:217-288 | `END` and only `END` ends the turn; a declared node's name leads to that node; any other name matches no declared node |
| DefaultGraph.Next | slingshot_graphs/default_graph.py:239-285 | the turn ends exactly after `sensitive_action`, after the rewrap node, and after either assistant when its reply has no tool calls |
| DefaultGraph.Step | slingshot_graphs/default_graph.py:217-288 | a step merges the node's update into the state and takes that node's edge; messages are only ever appended |
| DefaultGraph.RunNode | slingshot_graphs/default_graph.py:217-288 | after any node, the state holds what that node's routing function reads (a last message, and a tool call where one is read) |
| DefaultGraph.StepKeepsInvariant | slingshot_graphs/default_graph.py:217-288 | every step keeps the stack to `make_payment`/`primary_assistant` and only ever routes to a declared node, never to `sensitive_action`; the next node finds the state it needs |
| DefaultGraph.Turn | slingshot_graphs/default_graph.py:217-288 | a whole turn keeps the stack invariant, and never visits `sensitive_action` unless it starts there |
| DefaultGraph.LiveAgentTransferEndsTurn | slingshot_graphs/default_graph.py:262-282 | when the last tool call is the live-agent transfer, the primary assistant's tool node, which binds it, hands its result to the rewrap node, which ends the turn |
| DefaultGraph.PaymentSkillCannotTransfer | slingshot_graphs/default_graph.py:240-246 | the payment tool node does not bind the live-agent transfer: its last message is the environment's result for that call, and unless that result holds the deterministic or route marker the graph resumes the dialog on top of the stack |
| DefaultGraph.TransferNotPayment | slingshot_graphs/default_graph.py:155-160 | `transfer_to_live_agent` is not among the payment skill's tools |
| DefaultGraph.RouteRequestFollowed | slingshot_graphs/default_graph.py:78-101 | a payment tool result `"ROUTE <name>"` for a name the router knows goes through route-by-name to that name's node |
| DefaultGraph.RouteBackLeavesSkill | slingshot_graphs/default_graph.py:78-101 | a payment tool result `"ROUTE CompleteOrEscalate"` leads through route-by-name to the leave-skill node |
| DefaultGraph.EnterThenLeave | slingshot_graphs/default_graph.py:223-260 | entering and then leaving the payment skill grows the stack by `make_payment` then `primary_assistant` |
| DefaultGraph.StaticEdges | slingshot_graphs/default_graph.py:239-260 | entry goes to `make_payment`; leave-skill goes to the primary assistant; the rewrap node and `sensitive_action` end the turn |
| Text.Contains | slingshot_graphs/graph_helpers.py:244-248 | an occurrence needs room for the pattern, and a prefix is an occurrence |
| Text.ReplaceAll | slingshot_graphs/llm_generator.py:76-79 | a replacement no longer than the pattern never lengthens the text |
| Text.ContainsIff | slingshot_graphs/graph_helpers.py:244-248 | the left-to-right `in` scan succeeds iff the pattern occurs at some index |
| Text.Strip | slingshot_graphs/llm_generator.py:76-79 | `strip()` leaves no whitespace at either end, never lengthens, and gives `""` exactly for all-whitespace text |
| Text.StripIdempotent | slingshot_graphs/llm_generator.py:94-100 | stripping twice is stripping once |
| Text.ReplaceAbsent | slingshot_graphs/llm_generator.py:76-79 | replacing a pattern that does not occur changes nothing |
| Text.LastPieceSpec | slingshot_graphs/graph_helpers.py:209 | `split(sep)[-1]` is a suffix free of `sep`: the whole text when `sep` never occurs, and otherwise what directly follows an occurrence |
| Text.LastPieceAfterSep | slingshot_graphs/graph_helpers.py:209 | `sep + x` with no `sep` inside `x` splits to `x` |
| SplitPattern.FindSplit | slingshot_graphs/llm_generator.py:8 | the leftmost index at which the sentence pattern can start a match |
| SplitPattern.GreedyMatch | slingshot_graphs/llm_generator.py:8 | the pattern matches at an index exactly at split points, and the greedy `\s*` ends no later than the whole whitespace run |
| SplitPattern.MatchEnd | slingshot_graphs/llm_generator.py:66-72 | `re.search` finds nothing exactly when no index is a split point; a match end lies within the buffer and past its first character |
| SplitPattern.SearchSpec | slingshot_graphs/llm_generator.py:66-72 | `re.search` finds nothing iff the pattern matches nowhere; otherwise `match.end()` is the end of the longest match at the leftmost matching index |
| LlmGenerator.Clean | slingshot_graphs/llm_generator.py:76-79 | removing the marker and stripping gives stripped text no longer than the input |
| LlmGenerator.RemoveFirst | slingshot_graphs/llm_generator.py:13 | `list.remove` takes exactly one copy of the value out of the pool |
| LlmGenerator.PickIndex | slingshot_graphs/llm_generator.py:12 | every pick is a valid index into the pool |
| LlmGenerator.RemoveFunctions | slingshot_graphs/llm_generator.py:10-14 | non-leaking text passes through; leaking text becomes a filler taken out of the pool; an empty pool raises |
| LlmGenerator.SplitLoop | slingshot_graphs/llm_generator.py:65-80 | the loop stops only with no match left or a `$` in the buffer (or on an exception); a buffer with `$` is never split; every yielded sentence is stripped |
| LlmGenerator.SplitLoopStep | slingshot_graphs/llm_generator.py:65-80 | one split yields the filtered text up to the match end (all of it when that text is shorter), cleaned, and goes on with the cleaned remainder as the buffer, drawing the filler when the buffer leaked |
| LlmGenerator.LeakTruncatesFiller | slingshot_graphs/llm_generator.py:65-80 | a leak at a split point draws a filler, and the sentence yielded is that filler cut at the buffer's match end, cleaned |
| LlmGenerator.SplitLoopDraws | slingshot_graphs/llm_generator.py:65-80 | the fillers the loop drew plus what is left of the pool are exactly the starting pool |
| LlmGenerator.ChainStep | slingshot_graphs/llm_generator.py:89-93 | a chain-end event yields at most one item, the `sensitive_action` message, and only when it ends the turn; buffer and pool are untouched |
| LlmGenerator.ChainStepFirstStop | slingshot_graphs/llm_generator.py:89-93 | the first item naming `sensitive_action` decides the step: a node update yields its content with the marker removed and ends the turn, a string key ends it silently, and with no such item nothing changes |
| LlmGenerator.ChainStepNoStop | slingshot_graphs/llm_generator.py:89-93 | when no item names `sensitive_action`, the chain-end event changes nothing |
| LlmGenerator.ChainStepSkips | slingshot_graphs/llm_generator.py:89-93 | items before the first one naming `sensitive_action` are passed over without effect |
| LlmGenerator.Feed | slingshot_graphs/llm_generator.py:37-93 | one event only appends sentences, and conserves the fillers |
| LlmGenerator.Run | slingshot_graphs/llm_generator.py:36-103 | the event loop only appends sentences, conserves the fillers, and does nothing more once the turn has ended |
| LlmGenerator.Finish | slingshot_graphs/llm_generator.py:94-100 | a non-blank leftover buffer is yielded stripped, or as a stripped filler if it leaks; blank text, an ended turn or an exhausted pool yields nothing |
| LlmGenerator.Final | slingshot_graphs/llm_generator.py:29-103 | a turn, started from the fresh pool of three fillers, always ends, and the pool loses exactly the fillers drawn |
| LlmGenerator.ChunkText | slingshot_graphs/llm_generator.py:56-62 | a stream chunk adds nothing exactly when it is an empty string, an empty part list, or a list whose first part is not text; otherwise it adds the whole string or exactly the first part's text |
| LlmGenerator.Segment | slingshot_graphs/llm_generator.py:29-103 | the sentences of a turn are those the event loop yielded, plus at most the final flush |
| LlmGenerator.Anext | slingshot_graphs/llm_generator.py:107 | `anext` raises StopAsyncIteration iff nothing is yielded; otherwise the first sentence plus the rest is everything yielded |
| LlmGenerator.ChatCompletion | slingshot_graphs/llm_generator.py:105-109 | the first sentence and the remaining generator together are the turn's sentences; an empty turn raises |
| SegmenterProperties.RunAppend | slingshot_graphs/llm_generator.py:37 | folding over two stretches of the stream is folding over the whole stream |
| SegmenterProperties.OutputsInOrder | slingshot_graphs/llm_generator.py:29-103 | what a prefix of the stream yields is a prefix of what the turn yields |
| SegmenterProperties.StopsAt | slingshot_graphs/llm_generator.py:86-93 | after an event that ends the turn, later events are never looked at |
| SegmenterProperties.DeterministicToolEndsTurn | slingshot_graphs/llm_generator.py:82-88 | a tool result with the marker is the last sentence, stripped with the marker removed |
| SegmenterProperties.SensitiveActionEndsTurn | slingshot_graphs/llm_generator.py:89-93 | the `sensitive_action` message, marker removed, is the last sentence |
| SegmenterProperties.ExhaustedPoolEndsTurn | slingshot_graphs/llm_generator.py:102-103 | a leak at a split point with an empty pool raises, and the exception silently ends the turn |
| SegmenterProperties.DollarHoldsBack | slingshot_graphs/llm_generator.py:65-68 | once a `$` is in the buffer, no further sentence is split off |
| SegmenterProperties.DollarTurnYieldsOnce | slingshot_graphs/llm_generator.py:65-68 | so at most one more sentence follows the `$` in that turn |
| SegmenterProperties.FillersAreDistinct | slingshot_graphs/llm_generator.py:31-35 | the three fillers differ |
| SegmenterProperties.FillersDrawnWithoutReplacement | slingshot_graphs/llm_generator.py:10-14 | a turn draws at most three fillers, each from the pool, no two alike |
| SegmenterExamples.FirstSentence | slingshot_graphs/llm_generator.py:70-80 | without a leak or `$`, the first sentence is the buffer up to `match.end()`, cleaned |
| SegmenterExamples.CutSentenceEndsAtMark | slingshot_graphs/llm_generator.py:72-80 | without a leak, `$` or marker, that sentence is non-empty and ends with the terminal mark that matched |
| SegmenterExamples.DollarChunkFlushedWhole | slingshot_graphs/llm_generator.py:63-68 | a single stripped chunk with a `$` and no leak comes out whole, as one sentence |
| SegmenterExamples.TotalWithDecimalIsOneSentence | slingshot_graphs/llm_generator.py:67 | `"Your total is $300.00. Anything else?"` is one sentence |
| SegmenterExamples.WholeDollarIsOneSentence | slingshot_graphs/llm_generator.py:67 | `"It costs $5 today. Thanks."` is one sentence |
| SegmenterExamples.FillerCutShort | slingshot_graphs/llm_generator.py:65-80 | for `"Ok. Then functions.x"` and the first filler, the loop yields only `"Let"` and keeps `"me check that for you"` |
| SegmenterExamples.MarkerCanSurviveRemoval | slingshot_graphs/llm_generator.py:79 | removing the marker from `"DET" + marker + "ERMINISTIC"` leaves the marker |
| CallConfig.LanguageConfig | call_config.py:6-35 | exactly the four keys `en-in`, `en-out`, `kr-in`, `kr-out` have a profile; each profile uses the same language code for transcriber and synthesizer, and the default voice exactly for English |
| CallConfig.TableKeys | call_config.py:6-35 | `f'{lang}-{direction}'` is a key of the table iff the language is `en` or `kr` and the direction is `in` or `out` |
| CallConfig.DirectionsShareLanguage | call_config.py:6-35 | a language's inbound and outbound profiles differ only in the greeting |
| CallConfig.NewConfig | call_config.py:51-59 | construction succeeds iff `LANGUAGE` (default `en`) is a known language; it keeps the given thread id and that language, takes that language's inbound profile and `BASE_URL` as given; an unset or empty client name becomes `default`, and any other set `CLIENT_NAME` is kept as given |
| CallConfig.GetLanguageConfig | call_config.py:67-73 | without a valid override nothing changes and the current profile is returned; with one, it succeeds iff the raw language and the direction form a key, and then sets that profile and language and nothing else |
| CallConfig.PaddedLanguageRaises | call_config.py:69-70 | a language that is valid only after stripping passes the check and then fails the lookup |
| CallConfig.SpacedKoreanRaises | call_config.py:69-70 | `" kr"` raises KeyError |
| CallConfig.UnknownDirectionRaises | call_config.py:69-70 | a direction other than `in` or `out` raises KeyError |
| CallConfig.GetLanguageConfigIdempotent | call_config.py:67-73 | repeating a successful call returns the same profile and configuration |
| CallConfig.Construct | call_config.py:40-43 | an existing instance is returned as is; otherwise a new one is stored, and only if construction succeeds |
| CallConfig.Reinitialize | call_config.py:45-48 | always a fresh instance with the new thread id, replacing the stored one |
| CallConfig.SameInstanceUntilReinit | call_config.py:37-55 | once an instance exists, every construction returns it, thread id included |
| CallConfig.AskLanguageConfig | call_config.py:40-73 | asking the shared instance for a profile succeeds iff construction and the lookup do, and then stores the instance as `get_language_config` left it; when the lookup raises, the instance the metaclass built for the request stays stored, and a failed construction stores nothing |
| CallConfig.Calls | call_config.py:37-73 | each call of a run sees the table the previous call left, whether that call returned or raised; from an empty table or one whose instance is in the table, every stored and every returned instance holds the table's profile for its language |
| CallConfig.Perform | call_config.py:40-48 | a call that returns leaves its instance stored; a construction or re-initialisation that raises leaves the table as it was; with an instance stored, `CallConfig()` returns it and changes nothing |
| CallConfig.RaisedLookupKeepsInstance | call_config.py:40-73 | when the first request's lookup raises KeyError, the instance built for it stays stored, and the next `CallConfig()` returns it with the first thread id |
| CallConfig.SidewaysLookupKeepsInstance | call_config.py:67-73 | asking a fresh registry for Korean in direction `"sideways"` raises, and the next construction returns the instance built for that request |
| CallConfig.OverrideSeenByLaterCalls | call_config.py:40-71 | after an override, every later `CallConfig()` returns the instance with the new language and that language's profile |
| CallConfig.ReinitReplaces | call_config.py:45-55 | after a re-initialisation, the table stores the new instance, and every following construction returns it with its new thread id |

## Left out

- The LangGraph executor, `tools_condition`, `with_retry` and `with_fallbacks`: the graph is the explicit transition function `DefaultGraph.Step`, and `tools_condition` is the predicate "the last message has tool calls".
- `add_messages` merging by message id: messages are appended. Nodes here never re-send an existing id.
- `add_and_persist_messages` writing the conversation into the `CallConfig` singleton's metadata: this is a global side effect that no routing decision reads.
- The language model, the prompts, `ChatOpenAI` and the event source: replies and events are inputs.
- The tool results other than `transfer_to_live_agent` at the primary assistant's tool node: they are the environment's `run` function. This includes `validate_payment_amount_date`, which `DefaultGraph.ValidatePaymentAmountDate` models on its own. It also includes the answer LangGraph's `ToolNode` gives a call to a tool it does not bind, such as the transfer at the payment tool node.
- `uuid4`, `random.choice`, the environment variables and the clock: these are parameters. Every outcome of `random.choice` is some oracle pick.
- Prints and logging.
- `\d` matches ASCII digits only. Python's Unicode digits are not modelled.
- `DefaultGraph.ValidatePaymentAmountDate`: the amount is the text Python's float formatting would produce for the parsed float, because float parsing and rendering are not modelled. `None` stands for an amount that is missing or does not parse, and pydantic's validation error is the `Failure`.
- `route_primary_assistant`'s final `return ValueError(...)`: it is unreachable, because past the `END` test the last message has tool calls.
- An absent `dialog_state` is treated as the empty stack: every reader treats the two alike.
- `set_call_metadata`, `get_call_metadata` and `test_metadata`: these are plain field accessors. The only reader of `get_call_metadata` in the core is `add_and_persist_messages`, whose persistence side effect is left out above.
- `AZURE_SYNTHESIZER_DEFAULT_VOICE_NAME`: its value is defined by the synthesizer library, which is not part of this model. It is the `AzureDefault` voice.
- UI, telephony servers, dialers, AWS configuration and the graph factory: these lie outside the core.

=== FILE: call_config.dfy ===
/** The per-call configuration: the language profile table, the
    `CallConfig` constructed from the environment, the override rule of
    `get_language_config`, and the one-instance-per-class rule of the
    `Singleton` metaclass. The environment and `uuid4` become parameters. */
module CallConfig {
  import opened Wrappers
  import opened Text

  /** The synthesizer voice of a profile: the synthesizer library's default
      voice, whose value lives outside this repository, or a named one. */
  datatype Voice = AzureDefault | Named(name: string)

  /** One language profile; every entry of the table has these five fields. */
  datatype Profile = Profile(
    initialMessage: string,
    promptPreamble: string,
    transcriberLanguage: string,
    synthesizerLanguageCode: string,
    synthesizerVoice: Voice)

  const EnglishInbound := Profile(
    "Welcome to Slingshot AI. How can I assist you today?", "", "en-US", "en-US", AzureDefault)
  const EnglishOutbound := Profile(
    "Hello, this call is from Slingshot AI. I am calling to assist you with processing your payment",
    "", "en-US", "en-US", AzureDefault)
  const KoreanPreamble := "당신은 한국말 도우미 입니다."
  const KoreanVoice := Named("ko-KR-SunHiNeural")
  const KoreanInbound := Profile(
    "안녕하세요 슬링샷 AI 입니다. 무엇을 도와드릴까요?", KoreanPreamble, "ko-KR", "ko-KR", KoreanVoice)
  const KoreanOutbound := Profile(
    "안녕하세요 슬링샷 AI에서 전화드립니다. 고객님의 결제를 도와드리려 합니다",
    KoreanPreamble, "ko-KR", "ko-KR", KoreanVoice)

  /** `LANGUAGE_CONFIG[key]`; `None` is the KeyError. */
  function LanguageConfig(key: string): (r: Option<Profile>)
    ensures r.Some? <==> key in {"en-in", "en-out", "kr-in", "kr-out"}
    ensures r.Some? ==> r.value.synthesizerLanguageCode == r.value.transcriberLanguage
    ensures r.Some? ==> (r.value.synthesizerVoice == AzureDefault <==> r.value.transcriberLanguage == "en-US")
  {
    if key == "en-in" then Some(EnglishInbound)
    else if key == "en-out" then Some(EnglishOutbound)
    else if key == "kr-in" then Some(KoreanInbound)
    else if key == "kr-out" then Some(KoreanOutbound)
    else None
  }

  predicate KnownLanguage(lang: string) {
    lang == "en" || lang == "kr"
  }

  predicate KnownDirection(dir: string) {
    dir == "in" || dir == "out"
  }

  /** The f-string `f'{lang}-{direction}'`. */
  function Key(lang: string, dir: string): string {
    lang + "-" + dir
  }

  /** A key with a single dash at `p` splits at that dash only. */
  lemma DashSplit(lang: string, dir: string, key: string, p: nat)
    requires Key(lang, dir) == key
    requires p < |key| && key[p] == '-'
    requires forall i | 0 <= i < |key| && i != p :: key[i] != '-'
    ensures lang == key[..p] && dir == key[p + 1..]
  {
    assert key[|lang|] == '-';
    assert |lang| == p;
    assert key[..p] == lang;
    assert key[p + 1..] == dir;
  }

  /** The two keys of a known language split back into that language and
      a known direction. */
  lemma LanguageKeys(lang: string, dir: string, known: string)
    requires KnownLanguage(known)
    requires Key(lang, dir) == Key(known, "in") || Key(lang, dir) == Key(known, "out")
    ensures lang == known && KnownDirection(dir)
  {
    var key := Key(lang, dir);
    DashSplit(lang, dir, key, 2);
    assert key[..2] == known;
    if key == Key(known, "in") {
      assert key[3..] == "in";
    } else {
      assert key[3..] == "out";
    }
  }

  /** The table holds a profile for exactly the two languages in the two
      directions: a formatted key resolves iff both halves are known. */
  lemma TableKeys(lang: string, dir: string)
    ensures LanguageConfig(Key(lang, dir)).Some? <==> KnownLanguage(lang) && KnownDirection(dir)
  {
    var key := Key(lang, dir);
    if key == "en-in" || key == "en-out" {
      assert Key("en", "in") == "en-in" && Key("en", "out") == "en-out";
      LanguageKeys(lang, dir, "en");
    } else if key == "kr-in" || key == "kr-out" {
      assert Key("kr", "in") == "kr-in" && Key("kr", "out") == "kr-out";
      LanguageKeys(lang, dir, "kr");
    }
  }

  /** The inbound and outbound profiles of a language share everything
      but the greeting. */
  lemma DirectionsShareLanguage(lang: string)
    requires KnownLanguage(lang)
    ensures var i := LanguageConfig(Key(lang, "in"));
      var o := LanguageConfig(Key(lang, "out"));
      && i.Some? && o.Some?
      && i.value.(initialMessage := "") == o.value.(initialMessage := "")
  {
    if lang == "en" {
      assert Key(lang, "in") == "en-in" && Key(lang, "out") == "en-out";
    } else {
      assert Key(lang, "in") == "kr-in" && Key(lang, "out") == "kr-out";
    }
  }

  /** The state of one `CallConfig` instance that the model tracks. */
  datatype Config = Config(
    clientName: string,
    baseUrl: Option<string>,
    threadId: string,
    language: string,
    profile: Profile)

  /** `os.getenv(name)`. */
  function GetEnv(env: map<string, string>, name: string): Option<string> {
    if name in env then Some(env[name]) else None
  }

  /** `CallConfig.__init__`: the client name falls back to `"default"`
      when unset or empty, the language to `"en"` only when unset, and the
      inbound profile of that language is looked up; an unknown language is
      the KeyError. `threadId` is the `uuid4` the call draws. */
  function NewConfig(env: map<string, string>, threadId: string): (r: Result<Config, string>)
    ensures var lang := GetEnv(env, "LANGUAGE").GetOr("en");
      r.Success? <==> KnownLanguage(lang)
    ensures r.Success? ==>
      && r.value.threadId == threadId
      && r.value.language == GetEnv(env, "LANGUAGE").GetOr("en")
      && LanguageConfig(Key(r.value.language, "in")) == Some(r.value.profile)
      && r.value.profile.synthesizerLanguageCode == r.value.profile.transcriberLanguage
      && r.value.baseUrl == GetEnv(env, "BASE_URL")
      && (r.value.clientName == "default" <==>
            GetEnv(env, "CLIENT_NAME") in {None, Some(""), Some("default")})
    ensures r.Success? ==>
      match GetEnv(env, "CLIENT_NAME")
      case Some(n) => n != "" ==> r.value.clientName == n
      case None => true
  {
    var client := match GetEnv(env, "CLIENT_NAME")
      case Some(name) => if name == "" then "default" else name
      case None => "default";
    var lang := GetEnv(env, "LANGUAGE").GetOr("en");
    TableKeys(lang, "in");
    match LanguageConfig(Key(lang, "in"))
    case None => Failure("KeyError")
    case Some(p) => Success(Config(client, GetEnv(env, "BASE_URL"), threadId, lang, p))
  }

  /** Python truthiness of the optional `custom_language` argument. */
  predicate Given(custom: Option<string>) {
    custom.Some? && custom.value != ""
  }

  /** The override is taken when the stripped custom language is known. */
  predicate Overrides(custom: Option<string>) {
    Given(custom) && KnownLanguage(Strip(custom.value))
  }

  datatype Selected = Selected(config: Config, profile: Profile)

  /** `get_language_config`: the check strips the custom language but the
      lookup uses it as given, so a padded language or an unknown direction
      is a KeyError; otherwise an override replaces profile and language,
      and the current profile is returned. */
  function GetLanguageConfig(c: Config, dir: string, custom: Option<string>): (r: Result<Selected, string>)
    ensures !Overrides(custom) ==> r == Success(Selected(c, c.profile))
    ensures Overrides(custom) ==>
      (r.Success? <==> KnownLanguage(custom.value) && KnownDirection(dir))
    ensures r.Success? ==>
      && r.value.profile == r.value.config.profile
      && r.value.config == c.(profile := r.value.profile, language := r.value.config.language)
    ensures r.Success? && Overrides(custom) ==>
      && r.value.config.language == custom.value
      && LanguageConfig(Key(custom.value, dir)) == Some(r.value.profile)
  {
    if Overrides(custom) then
      TableKeys(custom.value, dir);
      match LanguageConfig(Key(custom.value, dir))
      case None => Failure("KeyError")
      case Some(p) => Success(Selected(c.(profile := p, language := custom.value), p))
    else Success(Selected(c, c.profile))
  }

  /** A custom language that only passes the check after stripping is a
      KeyError: `" kr"` is accepted by the check and fails the lookup. */
  lemma PaddedLanguageRaises(c: Config, dir: string, x: string)
    requires KnownLanguage(Strip(x)) && x != Strip(x)
    ensures GetLanguageConfig(c, dir, Some(x)).Failure?
  {
  }

  lemma SpacedKoreanRaises(c: Config, dir: string, x: string)
    requires x == " kr"
    ensures GetLanguageConfig(c, dir, Some(x)).Failure?
  {
    assert IsSpace(x[0]) && !IsSpace(x[1]) && !IsSpace(x[2]);
    assert LeadEnd(x, 0) == 1 && TrailStart(x, 1, 3) == 3;
    assert Strip(x) == x[1..3] == "kr";
    PaddedLanguageRaises(c, dir, x);
  }

  /** A known language with a direction other than `in` or `out` is a
      KeyError. */
  lemma UnknownDirectionRaises(c: Config, dir: string, x: string)
    requires KnownLanguage(x) && !KnownDirection(dir)
    ensures GetLanguageConfig(c, dir, Some(x)).Failure?
  {
    StripStripped(x);
  }

  /** Asking again with the same arguments returns the same profile and
      leaves the configuration as the first call left it. */
  lemma {:induction false} GetLanguageConfigIdempotent(c: Config, dir: string, custom: Option<string>)
    requires GetLanguageConfig(c, dir, custom).Success?
    ensures var first := GetLanguageConfig(c, dir, custom).value;
      GetLanguageConfig(first.config, dir, custom) == Success(first)
  {
    var first := GetLanguageConfig(c, dir, custom).value;
    if Overrides(custom) {
      assert first.config == c.(profile := first.profile, language := custom.value);
      assert first.config.(profile := first.profile, language := custom.value) == first.config;
    }
  }

  /** The class-to-instance table of the `Singleton` metaclass; only
      `CallConfig` uses it, so it holds at most one instance. */
  type Registry = Option<Config>

  datatype Built = Built(registry: Registry, instance: Config)

  /** `CallConfig()`: the stored instance when there is one; otherwise a
      new instance, stored. A failing constructor stores nothing. */
  function Construct(reg: Registry, env: map<string, string>, threadId: string): (r: Result<Built, string>)
    ensures reg.Some? ==> r == Success(Built(reg, reg.value))
    ensures reg.None? ==> (r.Success? <==> NewConfig(env, threadId).Success?)
    ensures r.Success? ==> r.value.registry == Some(r.value.instance)
  {
    if reg.Some? then Success(Built(reg, reg.value))
    else
      match NewConfig(env, threadId)
      case Failure(e) => Failure(e)
      case Success(c) => Success(Built(Some(c), c))
  }

  /** `CallConfig.reinitialize()`: always a new instance, which replaces
      the stored one. */
  function Reinitialize(reg: Registry, env: map<string, string>, threadId: string): (r: Result<Built, string>)
    ensures r.Success? <==> NewConfig(env, threadId).Success?
    ensures r.Success? ==> r.value.registry == Some(r.value.instance) && r.value.instance.threadId == threadId
  {
    match NewConfig(env, threadId)
    case Failure(e) => Failure(e)
    case Success(c) => Success(Built(Some(c), c))
  }

  /** A call on the metaclass or the shared instance, each with the
      environment and the `uuid4` a construction would see: construction,
      re-initialisation, or `CallConfig().get_language_config(dir, custom)`,
      which changes the shared instance in place. */
  datatype Call =
    | New(env: map<string, string>, threadId: string)
    | Reinit(env: map<string, string>, threadId: string)
    | Ask(env: map<string, string>, threadId: string, dir: string, custom: Option<string>)

  /** What a call leaves behind: the class-to-instance table, and the
      instance the call returned or worked on, or the exception it raised. */
  datatype Outcome = Outcome(registry: Registry, returned: Result<Config, string>)

  /** `CallConfig().get_language_config(dir, custom)`: the override is
      written back into the stored instance, so every later `CallConfig()`
      sees it. The metaclass stores a new instance before the lookup runs,
      so when the lookup raises, that instance stays stored unchanged. */
  function AskLanguageConfig(reg: Registry, env: map<string, string>, threadId: string,
                             dir: string, custom: Option<string>): (r: Outcome)
    ensures r.returned.Success? ==> r.registry == Some(r.returned.value)
    ensures r.returned.Success? <==>
      && Construct(reg, env, threadId).Success?
      && GetLanguageConfig(Construct(reg, env, threadId).value.instance, dir, custom).Success?
    ensures r.returned.Success? ==>
      GetLanguageConfig(Construct(reg, env, threadId).value.instance, dir, custom)
        == Success(Selected(r.returned.value, r.returned.value.profile))
    ensures Construct(reg, env, threadId).Failure? ==> r.registry == reg
    ensures Construct(reg, env, threadId).Success? && r.returned.Failure? ==>
      r.registry == Some(Construct(reg, env, threadId).value.instance)
  {
    match Construct(reg, env, threadId)
    case Failure(e) => Outcome(reg, Failure(e))
    case Success(b) =>
      match GetLanguageConfig(b.instance, dir, custom)
      case Failure(e) => Outcome(b.registry, Failure(e))
      case Success(sel) => Outcome(Some(sel.config), Success(sel.config))
  }

  /** The profile an instance holds is the table's entry for its language,
      in one of the two directions. */
  predicate InTable(c: Config) {
    || LanguageConfig(Key(c.language, "in")) == Some(c.profile)
    || LanguageConfig(Key(c.language, "out")) == Some(c.profile)
  }

  /** An override keeps the profile in the table. */
  lemma OverrideInTable(c: Config, dir: string, custom: Option<string>)
    requires InTable(c) && GetLanguageConfig(c, dir, custom).Success?
    ensures InTable(GetLanguageConfig(c, dir, custom).value.config)
  {
    if Overrides(custom) {
      TableKeys(custom.value, dir);
    }
  }

  /** One call, whether it returns or raises: a construction or
      re-initialisation that raises leaves the table as it was. */
  function Perform(reg: Registry, call: Call): (o: Outcome)
    ensures o.returned.Success? ==> o.registry == Some(o.returned.value)
    ensures !call.Ask? && o.returned.Failure? ==> o.registry == reg
    ensures call.New? && reg.Some? ==> o == Outcome(reg, Success(reg.value))
  {
    match call
    case New(env, id) =>
      (match Construct(reg, env, id)
       case Failure(e) => Outcome(reg, Failure(e))
       case Success(b) => Outcome(b.registry, Success(b.instance)))
    case Reinit(env, id) =>
      (match Reinitialize(reg, env, id)
       case Failure(e) => Outcome(reg, Failure(e))
       case Success(b) => Outcome(b.registry, Success(b.instance)))
    case Ask(env, id, dir, custom) => AskLanguageConfig(reg, env, id, dir, custom)
  }

  /** Whatever a call leaves stored holds a profile of the table. */
  lemma CallInTable(reg: Registry, call: Call)
    ensures (reg.Some? ==> InTable(reg.value)) && Perform(reg, call).registry.Some? ==>
      InTable(Perform(reg, call).registry.value)
  {
    match call
    case New(env, id) =>
    case Reinit(env, id) =>
    case Ask(env, id, dir, custom) =>
      var b := Construct(reg, env, id);
      if (reg.Some? ==> InTable(reg.value)) && b.Success? &&
         GetLanguageConfig(b.value.instance, dir, custom).Success? {
        OverrideInTable(b.value.instance, dir, custom);
      }
  }

  /** The outcome of each call of a run, each call seeing the table the
      previous one left, raised or not: a caught exception does not undo
      what the metaclass stored. Starting from nothing, or from an instance
      whose profile is in the table, the stored instance and every returned
      one always hold the table's profile for their language, in one
      direction or the other. */
  function Calls(reg: Registry, calls: seq<Call>): (r: seq<Outcome>)
    ensures |r| == |calls|
    ensures |calls| > 0 ==> r[0] == Perform(reg, calls[0])
    ensures forall i | 0 < i < |r| :: r[i] == Perform(r[i - 1].registry, calls[i])
    ensures (reg.Some? ==> InTable(reg.value)) ==>
      forall i | 0 <= i < |r| ::
        && (r[i].registry.Some? ==> InTable(r[i].registry.value))
        && (r[i].returned.Success? ==> InTable(r[i].returned.value))
    decreases |calls|
  {
    if |calls| == 0 then []
    else
      var o := Perform(reg, calls[0]);
      CallInTable(reg, calls[0]);
      [o] + Calls(o.registry, calls[1..])
  }

  /** A first `CallConfig().get_language_config(...)` whose lookup raises
      still leaves the freshly built instance stored, and the next
      `CallConfig()` returns that instance, with the first call's thread id,
      rather than building another. */
  lemma RaisedLookupKeepsInstance(env: map<string, string>, id: string, dir: string,
                                  custom: Option<string>, env2: map<string, string>, id2: string)
    requires NewConfig(env, id).Success?
    requires GetLanguageConfig(NewConfig(env, id).value, dir, custom).Failure?
    ensures var c := NewConfig(env, id).value;
      var r := Calls(None, [Ask(env, id, dir, custom), New(env2, id2)]);
      && r[0].returned.Failure? && r[0].registry == Some(c)
      && r[1] == Outcome(Some(c), Success(c))
      && r[1].returned.value.threadId == id
  {
  }

  /** The same with a direction the table does not know: asking a fresh
      registry for Korean `"sideways"` raises, and the next construction
      returns the instance built for that request. */
  lemma SidewaysLookupKeepsInstance(env: map<string, string>, id: string, id2: string)
    requires NewConfig(env, id).Success?
    ensures var r := Calls(None, [Ask(env, id, "sideways", Some("kr")), New(env, id2)]);
      && r[0].returned.Failure?
      && r[1].returned == Success(NewConfig(env, id).value)
  {
    UnknownDirectionRaises(NewConfig(env, id).value, "sideways", "kr");
    RaisedLookupKeepsInstance(env, id, "sideways", Some("kr"), env, id2);
  }

  /** Once an instance exists, every construction returns it, thread id
      included, until a re-initialisation. */
  lemma {:induction false} SameInstanceUntilReinit(c: Config, calls: seq<Call>)
    requires forall i | 0 <= i < |calls| :: calls[i].New?
    ensures forall i | 0 <= i < |calls| :: Calls(Some(c), calls)[i] == Outcome(Some(c), Success(c))
  {
    if |calls| > 0 {
      SameInstanceUntilReinit(c, calls[1..]);
    }
  }

  /** After a successful re-initialisation, the following constructions
      return the new instance, carrying the new thread id. */
  lemma ReinitReplaces(reg: Registry, env: map<string, string>, id: string, calls: seq<Call>)
    requires NewConfig(env, id).Success?
    requires forall i | 0 <= i < |calls| :: calls[i].New?
    ensures var r := Calls(reg, [Reinit(env, id)] + calls);
      forall i | 0 <= i < |r| ::
        && r[i].registry == Some(NewConfig(env, id).value)
        && r[i].returned == Success(NewConfig(env, id).value)
        && r[i].returned.value.threadId == id
  {
    var all := [Reinit(env, id)] + calls;
    assert all[1..] == calls;
    SameInstanceUntilReinit(NewConfig(env, id).value, calls);
  }

  /** An override is not local to the call that asked for it: every later
      `CallConfig()` returns the instance with the new language and the
      profile of that language in the asked direction. */
  lemma OverrideSeenByLaterCalls(c: Config, env: map<string, string>, id: string,
                                 dir: string, x: string, calls: seq<Call>)
    requires KnownLanguage(x) && KnownDirection(dir)
    requires forall i | 0 <= i < |calls| :: calls[i].New?
    ensures var r := Calls(Some(c), [Ask(env, id, dir, Some(x))] + calls);
      forall i | 0 <= i < |r| ::
        && r[i].returned.Success?
        && r[i].returned.value.language == x
        && LanguageConfig(Key(x, dir)) == Some(r[i].returned.value.profile)
        && r[i].returned.value.threadId == c.threadId
  {
    StripStripped(x);
    TableKeys(x, dir);
    var all := [Ask(env, id, dir, Some(x))] + calls;
    assert all[1..] == calls;
    var b := AskLanguageConfig(Some(c), env, id, dir, Some(x));
    assert b.returned.Success?;
    SameInstanceUntilReinit(b.returned.value, calls);
  }
}

=== FILE: default_graph.dfy ===
/** The payment dialog graph: its tools, its routing functions, the nodes
    and edges it declares, and one step of the graph as an explicit
    transition function. The model call, the tool calls and the `uuid4`
    values a step uses are given to it as an environment. */
module DefaultGraph {
  import opened Wrappers
  import opened Text
  import opened GraphHelpers

  const ToMakePaymentAssistant := "ToMakePaymentAssistant"
  const CompleteOrEscalate := "CompleteOrEscalate"
  const TransferToLiveAgentName := "transfer_to_live_agent"
  const ValidatePaymentName := "validate_payment_amount_date"

  /** The tools bound to `primary_assistant_tools`. */
  const PrimaryTools: set<string> := {TransferToLiveAgentName, ToMakePaymentAssistant}

  /** The tools bound to `make_payment_tools`: no live-agent transfer. */
  const PaymentTools: set<string> := {ValidatePaymentName, CompleteOrEscalate}
  const MakePaymentEntryMessage :=
    "The conversation has been routed to the Make Payment Assistant. Please reflect on the past conversation."
  const SensitiveActionText := "No problem.  I have noted on your account about your request."
  const SensitiveActionAgent := "DETERMINISTIC ACTION"

  /** The nodes `_initialize_graph` declares. */
  datatype Node =
    | HumanInput
    | EnterMakePayment
    | MakePayment
    | MakePaymentTools
    | SensitiveAction
    | ToolMsgToAiMsgNode
    | RouteToolResponseNode
    | LeaveSkill
    | PrimaryAssistantTools
    | PrimaryAssistant

  function NodeName(n: Node): string {
    match n
    case HumanInput => "human_input"
    case EnterMakePayment => "enter_make_payment"
    case MakePayment => "make_payment"
    case MakePaymentTools => "make_payment_tools"
    case SensitiveAction => "sensitive_action"
    case ToolMsgToAiMsgNode => "tool_msg_to_ai_msg"
    case RouteToolResponseNode => "route_tool_response"
    case LeaveSkill => "leave_skill"
    case PrimaryAssistantTools => "primary_assistant_tools"
    case PrimaryAssistant => "primary_assistant"
  }

  /** The node a routing function's string names, if it names one. */
  function NodeNamed(name: string): (r: Option<Node>)
    ensures r.Some? ==> NodeName(r.value) == name
    ensures r.None? ==> forall n: Node :: NodeName(n) != name
  {
    if name == "human_input" then Some(HumanInput)
    else if name == "enter_make_payment" then Some(EnterMakePayment)
    else if name == "make_payment" then Some(MakePayment)
    else if name == "make_payment_tools" then Some(MakePaymentTools)
    else if name == "sensitive_action" then Some(SensitiveAction)
    else if name == "tool_msg_to_ai_msg" then Some(ToolMsgToAiMsgNode)
    else if name == "route_tool_response" then Some(RouteToolResponseNode)
    else if name == "leave_skill" then Some(LeaveSkill)
    else if name == "primary_assistant_tools" then Some(PrimaryAssistantTools)
    else if name == "primary_assistant" then Some(PrimaryAssistant)
    else None
  }

  /** Node names are distinct, so a name finds the node it belongs to. */
  lemma NodeNamesResolve(n: Node)
    ensures NodeNamed(NodeName(n)) == Some(n)
  {
  }

  /** What a routing function returns: `END`, or a node name. */
  datatype Route = End | To(name: string)

  /** `tools_condition`: the last message asks for tools. */
  predicate WantsTools(s: State)
    requires |s.messages| > 0
  {
    |Last(s).toolCalls| > 0
  }

  function Names(calls: seq<ToolCall>): (r: seq<string>)
    ensures |r| == |calls|
    ensures forall i :: 0 <= i < |calls| ==> r[i] == calls[i].name
  {
    if |calls| == 0 then [] else [calls[0].name] + Names(calls[1..])
  }

  /** `route_primary_assistant`. Its final `ValueError` return cannot be
      reached: past the `END` test the last message has tool calls. */
  function RoutePrimaryAssistant(s: State): (r: Route)
    requires |s.messages| > 0
    ensures r == End <==> !WantsTools(s)
    ensures r == To("enter_make_payment") <==>
      WantsTools(s) && Last(s).toolCalls[0].name == ToMakePaymentAssistant
    ensures r == End || r == To("enter_make_payment") || r == To("primary_assistant_tools")
  {
    if !WantsTools(s) then End
    else if Last(s).toolCalls[0].name == ToMakePaymentAssistant then To("enter_make_payment")
    else To("primary_assistant_tools")
  }

  /** `route_make_payment`: any `CompleteOrEscalate` call, not only the
      first, leaves the skill. */
  function RouteMakePayment(s: State): (r: Route)
    requires |s.messages| > 0
    ensures r == End <==> !WantsTools(s)
    ensures r == To("leave_skill") <==> CompleteOrEscalate in Names(Last(s).toolCalls)
    ensures r == End || r == To("leave_skill") || r == To("make_payment_tools")
  {
    if !WantsTools(s) then End
    else if CompleteOrEscalate in Names(Last(s).toolCalls) then To("leave_skill")
    else To("make_payment_tools")
  }

  /** `route_to_workflow`: a new human turn resumes the current dialog. */
  function RouteToWorkflow(s: State): (r: string)
    ensures |s.dialogState| == 0 ==> r == "primary_assistant"
    ensures |s.dialogState| > 0 ==> r == s.dialogState[|s.dialogState| - 1]
  {
    LastDialogState(s.dialogState)
  }

  const RouterNameToNode: map<string, string> := map[
    ToMakePaymentAssistant := "enter_make_payment",
    CompleteOrEscalate := "leave_skill",
    TransferToLiveAgentName := "primary_assistant_tools"
  ]

  /** `route_route_tool_response`: the first tool call's name through
      `router_name_to_node`, or the current dialog for any other name. */
  function RouteRouteToolResponse(s: State): (r: string)
    requires |s.messages| > 0 && WantsTools(s)
    ensures Last(s).toolCalls[0].name in RouterNameToNode ==>
      r == RouterNameToNode[Last(s).toolCalls[0].name]
    ensures Last(s).toolCalls[0].name !in RouterNameToNode ==>
      r == LastDialogState(s.dialogState)
  {
    var name := Last(s).toolCalls[0].name;
    if name in RouterNameToNode then RouterNameToNode[name] else LastDialogState(s.dialogState)
  }

  /** `transfer_to_live_agent`: a deterministic goodbye. */
  function TransferToLiveAgent(language: string): (r: string)
    ensures StartsWith(r, DeterministicMarker)
    ensures Contains(r, DeterministicMarker)
  {
    var r := DeterministicMarker + " " + LiveAgentString(language);
    assert r[..|DeterministicMarker|] == DeterministicMarker;
    r
  }

  const RouteBack := "ROUTE CompleteOrEscalate"
  const AmountThanks := "Thanks for providing the amount of "
  const DateThanks := "Thanks for providing the desired payment date of "

  /** `validate_payment_amount_date`. Both arguments are required fields
      of the pydantic schema, so a missing date or an amount that does not
      parse as a float is a validation error before the body runs. Once
      parsed, the amount is a float, so the amount sentence is always
      written; the date sentence follows when the date is usable. The
      amount is the rendering of the parsed float. */
  function ValidatePaymentAmountDate(amount: Option<string>, date: Option<string>): (r: Result<string, string>)
    ensures r.Failure? <==> amount.None? || date.None?
    ensures r.Success? ==> r.value != ""
  {
    match (amount, date)
    case (Some(a), Some(d)) =>
      var first := AmountThanks + a + ".";
      var output :=
        if d != "" && d != "None" && d != "none" then first + DateThanks + d else first;
      Success(if output != "" then output else RouteBack)
    case _ => Failure("ValidationError")
  }

  /** The route-back answer is unreachable: whenever the tool returns, it
      thanks the customer for the amount, and for the date exactly when a
      usable one was given. */
  lemma ValidateNeverRoutesBack(amount: Option<string>, date: Option<string>)
    ensures var r := ValidatePaymentAmountDate(amount, date);
      && (r.Failure? <==> amount.None? || date.None?)
      && (r.Success? ==> r.value != RouteBack)
      && (r.Success? ==> StartsWith(r.value, AmountThanks + amount.value + "."))
      && (r.Success? ==>
            (r.value == AmountThanks + amount.value + "." <==>
               date.value == "" || date.value == "None" || date.value == "none"))
  {
    var r := ValidatePaymentAmountDate(amount, date);
    if r.Success? {
      var first := AmountThanks + amount.value + ".";
      assert r.value[..|first|] == first;
      assert r.value[0] == 'T' && RouteBack[0] == 'R';
      if date.value != "" && date.value != "None" && date.value != "none" {
        assert |r.value| > |first|;
      }
    }
  }

  /** The `sensitive_action` node. */
  function SensitiveActionNode(s: State): (u: Update)
    ensures u.messages == [Message(Ai, SensitiveActionText, [], None, None)]
    ensures u.agent == Some(SensitiveActionAgent)
    ensures u.dialogState.None? && u.userInfo.None?
  {
    Update([Message(Ai, SensitiveActionText, [], None, None)], Some(SensitiveActionAgent), None, None)
  }

  /** What the tool node did: ran every call, or raised. */
  datatype ToolsOutcome = ToolsReturned(run: ToolCall -> string) | ToolsRaised(errorRepr: string)

  /** What one step of the graph draws on from outside: the model's reply,
      the tool results, the call's language and two fresh ids. */
  datatype Env = Env(
    llm: LlmOutcome,
    tools: ToolsOutcome,
    language: string,
    msgId: string,
    callId: string)

  /** The result of a tool call in a node that binds the tools `bound`.
      `transfer_to_live_agent` is defined here and runs only where it is
      bound; every other result, including the tool node's invalid-tool
      error for a name the node does not bind, is what the environment says
      the node returned. */
  function ToolResult(c: ToolCall, bound: set<string>, env: Env): (r: string)
    requires env.tools.ToolsReturned?
    ensures c.name == TransferToLiveAgentName && c.name in bound ==> StartsWith(r, DeterministicMarker)
    ensures c.name != TransferToLiveAgentName || c.name !in bound ==> r == env.tools.run(c)
  {
    if c.name == TransferToLiveAgentName && c.name in bound then TransferToLiveAgent(env.language)
    else env.tools.run(c)
  }

  function ToolResults(calls: seq<ToolCall>, bound: set<string>, env: Env): (ms: seq<Message>)
    requires env.tools.ToolsReturned?
    ensures |ms| == |calls|
    ensures forall i :: 0 <= i < |calls| ==> ms[i] == ToolMessage(ToolResult(calls[i], bound, env), calls[i].id)
  {
    if |calls| == 0 then []
    else [ToolMessage(ToolResult(calls[0], bound, env), calls[0].id)] + ToolResults(calls[1..], bound, env)
  }

  /** A tool node binding the tools `bound`, with the `handle_tool_error`
      fallback: one tool message per call of the last message, the result
      or the error. */
  function ToolNode(s: State, bound: set<string>, env: Env): (u: Update)
    requires |s.messages| > 0
    ensures |u.messages| == |Last(s).toolCalls|
    ensures forall i :: 0 <= i < |u.messages| ==> u.messages[i].toolCallId == Some(Last(s).toolCalls[i].id)
    ensures u.agent.None? && u.dialogState.None? && u.userInfo.None?
  {
    match env.tools
    case ToolsReturned(_) => Update(ToolResults(Last(s).toolCalls, bound, env), None, None, None)
    case ToolsRaised(e) => HandleToolError(s, e)
  }

  /** Where the graph goes after a node. */
  datatype Target = Goto(node: Node) | EndTurn | Undeclared(name: string)

  /** A routing result read against the declared nodes: `END` ends the
      turn, a node's name leads to that node, and any other name is one
      the graph never declared. */
  function Resolve(route: Route): (r: Target)
    ensures r == EndTurn <==> route.End?
    ensures r.Goto? ==> route == To(NodeName(r.node))
    ensures r.Undeclared? ==> route == To(r.name) && forall n: Node :: NodeName(n) != r.name
  {
    match route
    case End => EndTurn
    case To(name) =>
      match NodeNamed(name)
      case Some(n) => Goto(n)
      case None => Undeclared(name)
  }

  /** What a node needs of the state it runs on: the entry node and the
      route-by-name node read the first tool call of the last message, and
      the other adapter and tool nodes read the last message. */
  predicate NodePre(n: Node, s: State) {
    match n
    case HumanInput => true
    case MakePayment => true
    case PrimaryAssistant => true
    case SensitiveAction => true
    case EnterMakePayment => |s.messages| > 0 && WantsTools(s)
    case MakePaymentTools => |s.messages| > 0 && WantsTools(s)
    case PrimaryAssistantTools => |s.messages| > 0 && WantsTools(s)
    case _ => |s.messages| > 0
  }

  /** What a node's outgoing edge or routing function reads of the state
      after the node ran. */
  predicate RoutePre(n: Node, t: State) {
    match n
    case MakePayment => |t.messages| > 0
    case PrimaryAssistant => |t.messages| > 0
    case MakePaymentTools => |t.messages| > 0
    case PrimaryAssistantTools => |t.messages| > 0
    case RouteToolResponseNode => |t.messages| > 0 && WantsTools(t)
    case _ => true
  }

  /** The node functions `_initialize_graph` registers. */
  function RunNode(n: Node, s: State, env: Env): (u: Update)
    requires NodePre(n, s)
    ensures RoutePre(n, Apply(s, u))
  {
    match n
    case HumanInput => UserInfo(s)
    case EnterMakePayment => SpecificEntryNode(MakePaymentEntryMessage, "make_payment", s)
    case MakePayment => AssistantCall("make_payment", env.llm)
    case MakePaymentTools => ToolNode(s, PaymentTools, env)
    case SensitiveAction => SensitiveActionNode(s)
    case ToolMsgToAiMsgNode => ToolMsgToAiMsg(s, env.msgId)
    case RouteToolResponseNode => RouteToolResponse(s, env.msgId, env.callId)
    case LeaveSkill => PopDialogState(s)
    case PrimaryAssistantTools => ToolNode(s, PrimaryTools, env)
    case PrimaryAssistant => AssistantCall("primary_assistant", env.llm)
  }

  /** The edges `_initialize_graph` adds: two unconditional ones, a routing
      function for each other node that has one, and nothing after
      `sensitive_action` and `tool_msg_to_ai_msg`, where the turn ends. */
  function Next(n: Node, t: State): (r: Target)
    requires RoutePre(n, t)
    ensures r == EndTurn <==>
      || n == SensitiveAction || n == ToolMsgToAiMsgNode
      || ((n == MakePayment || n == PrimaryAssistant) && !WantsTools(t))
  {
    match n
    case HumanInput => Resolve(To(RouteToWorkflow(t)))
    case EnterMakePayment => Goto(MakePayment)
    case MakePayment => Resolve(RouteMakePayment(t))
    case MakePaymentTools => Resolve(To(RouteSensitiveTools(t)))
    case SensitiveAction => EndTurn
    case ToolMsgToAiMsgNode => EndTurn
    case RouteToolResponseNode => Resolve(To(RouteRouteToolResponse(t)))
    case LeaveSkill => Goto(PrimaryAssistant)
    case PrimaryAssistantTools => Resolve(To(RouteSensitiveTools(t)))
    case PrimaryAssistant => Resolve(RoutePrimaryAssistant(t))
  }

  datatype Stepped = Stepped(state: State, next: Target)

  /** One node runs, its update is merged, and then its edge picks the
      next node. */
  function Step(n: Node, s: State, env: Env): (r: Stepped)
    requires NodePre(n, s)
    ensures r.state == Apply(s, RunNode(n, s, env))
    ensures r.next == Next(n, r.state)
    ensures s.messages <= r.state.messages
  {
    var t := Apply(s, RunNode(n, s, env));
    Stepped(t, Next(n, t))
  }

  /** The stack holds only the two dialogs the graph pushes: entering the
      payment skill pushes `"make_payment"` and leaving it pushes
      `"primary_assistant"`. */
  predicate StackOk(stack: seq<string>) {
    forall i :: 0 <= i < |stack| ==> stack[i] == "make_payment" || stack[i] == "primary_assistant"
  }

  lemma CurrentDialogIsAssistant(stack: seq<string>)
    requires StackOk(stack)
    ensures NodeNamed(LastDialogState(stack)) == Some(MakePayment)
      || NodeNamed(LastDialogState(stack)) == Some(PrimaryAssistant)
  {
  }

  /** Returning to the current dialog always finds one of the two
      assistant nodes. */
  lemma ResolveCurrent(stack: seq<string>)
    requires StackOk(stack)
    ensures var t := Resolve(To(LastDialogState(stack)));
      t == Goto(MakePayment) || t == Goto(PrimaryAssistant)
  {
    if |stack| > 0 {
      var top := stack[|stack| - 1];
      if top == "make_payment" {
        assert NodeNamed(top) == Some(MakePayment);
      } else {
        assert NodeNamed(top) == Some(PrimaryAssistant);
      }
    }
  }

  lemma ResolveAfterTools(t: State)
    requires |t.messages| > 0 && StackOk(t.dialogState)
    ensures var r := Resolve(To(RouteSensitiveTools(t)));
      r == Goto(ToolMsgToAiMsgNode) || r == Goto(RouteToolResponseNode)
      || r == Goto(MakePayment) || r == Goto(PrimaryAssistant)
  {
    ResolveCurrent(t.dialogState);
  }

  lemma ResolveAfterRouting(t: State)
    requires |t.messages| > 0 && WantsTools(t) && StackOk(t.dialogState)
    ensures var r := Resolve(To(RouteRouteToolResponse(t)));
      r == Goto(EnterMakePayment) || r == Goto(LeaveSkill)
      || r == Goto(PrimaryAssistantTools) || r == Goto(MakePayment) || r == Goto(PrimaryAssistant)
  {
    ResolveCurrent(t.dialogState);
  }

  /** Every step keeps the stack to the two dialogs, every routing function
      names a declared node, the step it leads to finds the state it needs,
      and nothing ever routes to `sensitive_action`. */
  lemma StepKeepsInvariant(n: Node, s: State, env: Env)
    requires NodePre(n, s) && StackOk(s.dialogState)
    ensures var r := Step(n, s, env);
      && StackOk(r.state.dialogState)
      && !r.next.Undeclared?
      && r.next != Goto(SensitiveAction)
      && (r.next.Goto? ==> NodePre(r.next.node, r.state))
  {
    var r := Step(n, s, env);
    match n
    case HumanInput =>
      ResolveCurrent(r.state.dialogState);
    case MakePaymentTools =>
      ResolveAfterTools(r.state);
    case PrimaryAssistantTools =>
      ResolveAfterTools(r.state);
    case RouteToolResponseNode =>
      ResolveAfterRouting(r.state);
    case _ =>
  }

  /** A turn run node by node from `n`, one environment per step, until
      a node with no way on ends it or the environments run out. */
  datatype TurnResult = TurnResult(state: State, visited: seq<Node>, ended: bool)

  function Turn(n: Node, s: State, envs: seq<Env>): (r: TurnResult)
    requires NodePre(n, s) && StackOk(s.dialogState)
    ensures StackOk(r.state.dialogState)
    ensures SensitiveAction !in r.visited || n == SensitiveAction
    ensures |r.visited| <= |envs|
    decreases |envs|
  {
    if |envs| == 0 then TurnResult(s, [], false)
    else
      var st := Step(n, s, envs[0]);
      StepKeepsInvariant(n, s, envs[0]);
      match st.next
      case Goto(m) =>
        var rest := Turn(m, st.state, envs[1..]);
        TurnResult(rest.state, [n] + rest.visited, rest.ended)
      case EndTurn => TurnResult(st.state, [n], true)
      case Undeclared(_) => TurnResult(st.state, [n], false)
  }

  /** The live-agent transfer ends the turn with its goodbye: in the
      primary tool node its result is deterministic, so the node hands it
      to `tool_msg_to_ai_msg`. */
  lemma LiveAgentTransferEndsTurn(s: State, env: Env)
    requires |s.messages| > 0 && WantsTools(s) && env.tools.ToolsReturned?
    requires Last(s).toolCalls[|Last(s).toolCalls| - 1].name == TransferToLiveAgentName
    ensures Step(PrimaryAssistantTools, s, env).next == Goto(ToolMsgToAiMsgNode)
  {
    var t := Apply(s, ToolNode(s, PrimaryTools, env));
    LastToolResult(s, PrimaryTools, env);
    ToolsStep(PrimaryAssistantTools, s, env);
    assert TransferToLiveAgentName in PrimaryTools;
    assert RouteSensitiveTools(t) == "tool_msg_to_ai_msg";
    ToolMsgResolves();
  }

  /** The payment skill cannot transfer: its tool node does not bind
      `transfer_to_live_agent`, so such a call gets the node's own result
      for an unbound tool, and unless that text asks for a route or is
      deterministic, the turn goes back to the current dialog. */
  lemma PaymentSkillCannotTransfer(s: State, env: Env)
    requires |s.messages| > 0 && WantsTools(s) && env.tools.ToolsReturned?
    requires Last(s).toolCalls[|Last(s).toolCalls| - 1].name == TransferToLiveAgentName
    ensures var c := Last(s).toolCalls[|Last(s).toolCalls| - 1];
      var r := Step(MakePaymentTools, s, env);
      && Last(r.state).content == env.tools.run(c)
      && (!Contains(env.tools.run(c), DeterministicMarker) && !Contains(env.tools.run(c), RouteMarker) ==>
            r.next == Resolve(To(LastDialogState(s.dialogState))))
  {
    var t := Apply(s, ToolNode(s, PaymentTools, env));
    LastToolResult(s, PaymentTools, env);
    ToolsStep(MakePaymentTools, s, env);
    TransferNotPayment();
    assert t.dialogState == s.dialogState;
  }

  lemma TransferNotPayment()
    ensures TransferToLiveAgentName !in PaymentTools
  {
    assert TransferToLiveAgentName[0] != ValidatePaymentName[0];
    assert TransferToLiveAgentName[0] != CompleteOrEscalate[0];
  }

  /** After a tool node that ran, the last message is the last call's result. */
  lemma LastToolResult(s: State, bound: set<string>, env: Env)
    requires |s.messages| > 0 && WantsTools(s) && env.tools.ToolsReturned?
    ensures var calls := Last(s).toolCalls;
      Last(Apply(s, ToolNode(s, bound, env))).content == ToolResult(calls[|calls| - 1], bound, env)
  {
    var calls := Last(s).toolCalls;
    var ms := ToolResults(calls, bound, env);
    assert Apply(s, ToolNode(s, bound, env)).messages == s.messages + ms;
  }

  lemma RouteBackNotDeterministic(x: string)
    requires x == RouteBack
    ensures !Contains(x, DeterministicMarker)
  {
    assert forall i | 0 <= i < |x| :: x[i] != 'D';
    CharAbsentNotContains(x, DeterministicMarker, 0);
  }

  lemma RouteBackIsRoute(x: string)
    requires x == RouteBack
    ensures Contains(x, RouteMarker)
  {
    assert x[..|RouteMarker|] == RouteMarker;
  }

  lemma RouteBackNamesEscalate(x: string, name: string)
    requires x == RouteBack && name == CompleteOrEscalate
    ensures x == RouteSep + name
  {
  }

  lemma EscalateHasNoRoute(name: string)
    requires name == CompleteOrEscalate
    ensures !Contains(name, RouteSep)
  {
    assert forall i | 0 <= i < |name| :: name[i] != 'R';
    CharAbsentNotContains(name, RouteSep, 0);
  }

  /** The tools a tool node binds. */
  function BoundTools(n: Node): set<string> {
    if n == MakePaymentTools then PaymentTools else PrimaryTools
  }

  lemma ToolsStep(n: Node, s: State, env: Env)
    requires n == MakePaymentTools || n == PrimaryAssistantTools
    requires NodePre(n, s)
    ensures var t := Apply(s, ToolNode(s, BoundTools(n), env));
      Step(n, s, env) == Stepped(t, Resolve(To(RouteSensitiveTools(t))))
  {
  }

  lemma RouteToolStep(t: State, env: Env)
    requires |t.messages| > 0
    ensures var u := Apply(t, RouteToolResponse(t, env.msgId, env.callId));
      Step(RouteToolResponseNode, t, env) == Stepped(u, Resolve(To(RouteRouteToolResponse(u))))
  {
  }

  lemma ResolvesTo(name: string, n: Node)
    requires name == NodeName(n)
    ensures Resolve(To(name)) == Goto(n)
  {
    NodeNamesResolve(n);
  }

  lemma RouteToolResponseResolves()
    ensures Resolve(To("route_tool_response")) == Goto(RouteToolResponseNode)
  {
    ResolvesTo("route_tool_response", RouteToolResponseNode);
  }

  lemma ToolMsgResolves()
    ensures Resolve(To("tool_msg_to_ai_msg")) == Goto(ToolMsgToAiMsgNode)
  {
    ResolvesTo("tool_msg_to_ai_msg", ToolMsgToAiMsgNode);
  }

  lemma RouteRequestSensitive(t: State, name: string)
    requires |t.messages| > 0 && Last(t).content == RouteSep + name
    requires !Contains(RouteSep + name, DeterministicMarker)
    ensures RouteSensitiveTools(t) == "route_tool_response"
  {
    assert (RouteSep + name)[..|RouteMarker|] == RouteMarker;
  }

  lemma RoutedNameLooked(t: State, env: Env, name: string)
    requires |t.messages| > 0 && Last(t).content == RouteSep + name && !Contains(name, RouteSep)
    requires name in RouterNameToNode
    ensures var u := Apply(t, RouteToolResponse(t, env.msgId, env.callId));
      |u.messages| > 0 && WantsTools(u) && RouteRouteToolResponse(u) == RouterNameToNode[name]
  {
    RouteNamesTool(t, env.msgId, env.callId, name);
  }

  /** A tool result `"ROUTE <name>"`, for a name the router knows and
      with no deterministic marker, sends the turn through
      `route_tool_response` to the node the router maps the name to. */
  lemma RouteRequestFollowed(s: State, env: Env, env2: Env, name: string)
    requires |s.messages| > 0 && WantsTools(s) && env.tools.ToolsReturned?
    requires var c := Last(s).toolCalls[|Last(s).toolCalls| - 1];
      ToolResult(c, PaymentTools, env) == RouteSep + name
    requires !Contains(RouteSep + name, DeterministicMarker) && !Contains(name, RouteSep)
    requires name in RouterNameToNode
    ensures var r := Step(MakePaymentTools, s, env);
      && r.next == Goto(RouteToolResponseNode)
      && Step(RouteToolResponseNode, r.state, env2).next == Resolve(To(RouterNameToNode[name]))
  {
    var t := Apply(s, ToolNode(s, PaymentTools, env));
    LastToolResult(s, PaymentTools, env);
    ToolsStep(MakePaymentTools, s, env);
    RouteRequestSensitive(t, name);
    RouteToolResponseResolves();
    RouteToolStep(t, env2);
    RoutedNameLooked(t, env2, name);
  }

  /** A `"ROUTE CompleteOrEscalate"` result from the payment tools leaves
      the skill. */
  lemma RouteBackLeavesSkill(s: State, env: Env, env2: Env)
    requires |s.messages| > 0 && WantsTools(s) && env.tools.ToolsReturned?
    requires var c := Last(s).toolCalls[|Last(s).toolCalls| - 1];
      env.tools.run(c) == RouteBack
    ensures var r := Step(MakePaymentTools, s, env);
      && r.next == Goto(RouteToolResponseNode)
      && Step(RouteToolResponseNode, r.state, env2).next == Goto(LeaveSkill)
  {
    TransferNotPayment();
    RouteBackNamesEscalate(RouteBack, CompleteOrEscalate);
    RouteBackNotDeterministic(RouteBack);
    EscalateHasNoRoute(CompleteOrEscalate);
    RouteRequestFollowed(s, env, env2, CompleteOrEscalate);
    EscalateResolves();
  }

  lemma EscalateResolves()
    ensures CompleteOrEscalate in RouterNameToNode
    ensures Resolve(To(RouterNameToNode[CompleteOrEscalate])) == Goto(LeaveSkill)
  {
    ResolvesTo("leave_skill", LeaveSkill);
  }

  /** Entering the payment skill and leaving it again does not restore the
      stack: it grows by two and the primary assistant is on top. */
  lemma EnterThenLeave(s: State, env: Env, env2: Env)
    requires |s.messages| > 0 && WantsTools(s)
    ensures var t := Step(EnterMakePayment, s, env).state;
      && |t.messages| > 0
      && Step(LeaveSkill, t, env2).state.dialogState == s.dialogState + ["make_payment", "primary_assistant"]
      && LastDialogState(Step(LeaveSkill, t, env2).state.dialogState) == "primary_assistant"
  {
  }

  /** The unconditional edges. */
  lemma StaticEdges(s: State, env: Env)
    ensures |s.messages| > 0 && WantsTools(s) ==> Step(EnterMakePayment, s, env).next == Goto(MakePayment)
    ensures |s.messages| > 0 ==> Step(LeaveSkill, s, env).next == Goto(PrimaryAssistant)
    ensures Step(SensitiveAction, s, env).next == EndTurn
    ensures |s.messages| > 0 ==> Step(ToolMsgToAiMsgNode, s, env).next == EndTurn
  {
  }
}

=== FILE: graph_helpers.dfy ===
/** The per-call conversation state of the dialog graph, the reducers that
    merge a node's partial update into it, and the adapter nodes and routing
    helpers every graph shares. */
module GraphHelpers {
  import opened Wrappers
  import opened Text

  datatype Role = Human | Ai | Tool

  /** One tool call requested by a model message. */
  datatype ToolCall = ToolCall(name: string, id: string, args: map<string, string>)

  /** A chat message: who wrote it, its text, the tool calls it requests
      (model messages only), the tool call it answers (tool messages only)
      and its message id when one was assigned. */
  datatype Message = Message(
    role: Role,
    content: string,
    toolCalls: seq<ToolCall>,
    toolCallId: Option<string>,
    id: Option<string>)

  /** The graph state. An absent `dialog_state` behaves as the empty stack
      everywhere it is read. */
  datatype State = State(
    messages: seq<Message>,
    agents: seq<string>,
    userInfo: string,
    dialogState: seq<string>)

  /** What a node returns: the keys it sets, each merged by its reducer. */
  datatype Update = Update(
    messages: seq<Message>,
    agent: Option<string>,
    dialogState: Option<string>,
    userInfo: Option<string>)

  const DefaultDialogState := "primary_assistant"
  const Pop := "pop"
  const ResumeMessage :=
    "Resuming dialog with the host assistant. Please reflect on the past conversation. First, call a function if appropriate. If not, respond to the user."
  const Apology := "Apologies.  There are some errors in our end"

  function Last(s: State): Message
    requires |s.messages| > 0
  {
    s.messages[|s.messages| - 1]
  }

  function ToolMessage(content: string, callId: string): Message {
    Message(Tool, content, [], Some(callId), None)
  }

  function CallIds(calls: seq<ToolCall>): (r: seq<string>)
    ensures |r| == |calls|
    ensures forall i :: 0 <= i < |calls| ==> r[i] == calls[i].id
  {
    if |calls| == 0 then [] else [calls[0].id] + CallIds(calls[1..])
  }

  /** The ids the tool messages in `ms` answer, in order. */
  function AnsweredIds(ms: seq<Message>): (r: seq<Option<string>>)
    ensures |r| == |ms|
    ensures forall i :: 0 <= i < |ms| ==> r[i] == ms[i].toolCallId
  {
    if |ms| == 0 then [] else [ms[0].toolCallId] + AnsweredIds(ms[1..])
  }

  /** `update_dialog_stack`: `None` keeps the stack, `"pop"` drops its top
      (an empty stack stays empty), anything else is pushed. */
  function UpdateDialogStack(left: seq<string>, right: Option<string>): (r: seq<string>)
    ensures right.None? ==> r == left
    ensures right == Some(Pop) ==> r <= left && |r| == if |left| == 0 then 0 else |left| - 1
    ensures right.Some? && right.value != Pop ==>
      |r| == |left| + 1 && left <= r && r[|left|] == right.value
  {
    match right
    case None => left
    case Some(x) =>
      if x == Pop then (if |left| == 0 then [] else left[..|left| - 1])
      else left + [x]
  }

  /** The `agents` reducer: a present value is appended. */
  function Reducer(a: seq<string>, b: Option<string>): (r: seq<string>)
    ensures a <= r
    ensures |r| == |a| + (if b.Some? then 1 else 0)
    ensures b.Some? ==> r[|a|] == b.value
  {
    match b
    case None => a
    case Some(x) => a + [x]
  }

  /** Merge a node's update into the state: the old messages are kept and
      the update's follow them; a key the update leaves unset keeps its
      value; a set agent is recorded after the others; a dialog state other
      than `"pop"` is pushed, and `"pop"` drops the top; a set user info
      replaces the old one. */
  function Apply(s: State, u: Update): (r: State)
    ensures s.messages <= r.messages && r.messages[|s.messages|..] == u.messages
    ensures u.agent.None? ==> r.agents == s.agents
    ensures u.agent.Some? ==> r.agents == s.agents + [u.agent.value]
    ensures u.dialogState.None? ==> r.dialogState == s.dialogState
    ensures u.dialogState == Some(Pop) ==>
      r.dialogState == s.dialogState[..if |s.dialogState| == 0 then 0 else |s.dialogState| - 1]
    ensures u.dialogState.Some? && u.dialogState.value != Pop ==>
      r.dialogState == s.dialogState + [u.dialogState.value]
    ensures u.userInfo.None? ==> r.userInfo == s.userInfo
    ensures u.userInfo.Some? ==> r.userInfo == u.userInfo.value
  {
    State(
      s.messages + u.messages,
      Reducer(s.agents, u.agent),
      u.userInfo.GetOr(s.userInfo),
      UpdateDialogStack(s.dialogState, u.dialogState))
  }

  /** `get_last_dialog_state`: the top of the stack, or the primary
      assistant when the stack is empty. */
  function LastDialogState(stack: seq<string>): (r: string)
    ensures |stack| > 0 ==> r == stack[|stack| - 1]
    ensures |stack| == 0 ==> r == DefaultDialogState
  {
    if |stack| == 0 then DefaultDialogState else stack[|stack| - 1]
  }

  /** Pushing `x` and then popping gives the stack back, and while `x` is
      pushed it is what the graph reads as the current dialog. */
  lemma PushThenPop(stack: seq<string>, x: string)
    requires x != Pop
    ensures LastDialogState(UpdateDialogStack(stack, Some(x))) == x
    ensures UpdateDialogStack(UpdateDialogStack(stack, Some(x)), Some(Pop)) == stack
  {
    var pushed := UpdateDialogStack(stack, Some(x));
    assert pushed[..|pushed| - 1] == stack;
  }

  /** `pop_dialog_state`: one tool message answering the first tool call
      when the last message has tool calls, and the dialog state
      `"primary_assistant"` for the stack reducer. */
  function PopDialogState(s: State): (u: Update)
    requires |s.messages| > 0
    ensures u.dialogState == Some(DefaultDialogState)
    ensures u.agent.None? && u.userInfo.None?
    ensures |u.messages| == (if |Last(s).toolCalls| > 0 then 1 else 0)
    ensures |u.messages| == 1 ==>
      u.messages[0] == ToolMessage(ResumeMessage, Last(s).toolCalls[0].id)
  {
    var calls := Last(s).toolCalls;
    var ms := if |calls| > 0 then [ToolMessage(ResumeMessage, calls[0].id)] else [];
    Update(ms, None, Some(DefaultDialogState), None)
  }

  /** Leaving a skill does not pop: the reducer pushes the primary
      assistant on top of whatever the stack held. */
  lemma LeaveSkillPushes(s: State)
    requires |s.messages| > 0
    ensures Apply(s, PopDialogState(s)).dialogState == s.dialogState + [DefaultDialogState]
    ensures LastDialogState(Apply(s, PopDialogState(s)).dialogState) == DefaultDialogState
    ensures |Apply(s, PopDialogState(s)).dialogState| == |s.dialogState| + 1
  {
  }

  function ToolErrorContent(errorRepr: string): string {
    "Error: " + errorRepr + "\n please fix your mistakes."
  }

  /** `handle_tool_error`: one tool message per tool call of the last
      message, in order. `errorRepr` is `repr` of the caught exception. */
  function HandleToolError(s: State, errorRepr: string): (u: Update)
    requires |s.messages| > 0
    ensures |u.messages| == |Last(s).toolCalls|
    ensures forall i :: 0 <= i < |u.messages| ==>
      u.messages[i] == ToolMessage(ToolErrorContent(errorRepr), Last(s).toolCalls[i].id)
    ensures u.agent.None? && u.dialogState.None? && u.userInfo.None?
  {
    Update(ErrorMessages(Last(s).toolCalls, errorRepr), None, None, None)
  }

  function ErrorMessages(calls: seq<ToolCall>, errorRepr: string): (ms: seq<Message>)
    ensures |ms| == |calls|
    ensures forall i :: 0 <= i < |ms| ==> ms[i] == ToolMessage(ToolErrorContent(errorRepr), calls[i].id)
  {
    if |calls| == 0 then []
    else [ToolMessage(ToolErrorContent(errorRepr), calls[0].id)] + ErrorMessages(calls[1..], errorRepr)
  }

  /** Every tool call is answered exactly once, in the order of the calls. */
  lemma ToolErrorsAnswerEveryCall(s: State, errorRepr: string)
    requires |s.messages| > 0
    ensures AnsweredIds(HandleToolError(s, errorRepr).messages) == Somes(CallIds(Last(s).toolCalls))
  {
  }

  function Somes(xs: seq<string>): (r: seq<Option<string>>)
    ensures |r| == |xs|
    ensures forall i :: 0 <= i < |xs| ==> r[i] == Some(xs[i])
  {
    if |xs| == 0 then [] else [Some(xs[0])] + Somes(xs[1..])
  }

  /** `create_specific_entry_node`'s node: one tool message answering the
      first tool call, and `newDialogState` for the stack reducer. */
  function SpecificEntryNode(entryMessage: string, newDialogState: string, s: State): (u: Update)
    requires |s.messages| > 0 && |Last(s).toolCalls| > 0
    ensures u.messages == [ToolMessage(entryMessage, Last(s).toolCalls[0].id)]
    ensures u.dialogState == Some(newDialogState)
    ensures u.agent.None? && u.userInfo.None?
  {
    Update([ToolMessage(entryMessage, Last(s).toolCalls[0].id)], None, Some(newDialogState), None)
  }

  function RoutedMessage(assistantName: string): string {
    "The conversation has been routed to the " + assistantName + "."
  }

  /** `create_entry_node`'s node: the same, with a message naming the
      assistant. */
  function EntryNode(assistantName: string, newDialogState: string, s: State): (u: Update)
    requires |s.messages| > 0 && |Last(s).toolCalls| > 0
    ensures u.messages == [ToolMessage(RoutedMessage(assistantName), Last(s).toolCalls[0].id)]
    ensures u.dialogState == Some(newDialogState)
    ensures u.agent.None? && u.userInfo.None?
  {
    SpecificEntryNode(RoutedMessage(assistantName), newDialogState, s)
  }

  /** Entering a skill answers the tool call that asked for it and makes
      the skill the current dialog. */
  lemma EntryMakesCurrent(entryMessage: string, newDialogState: string, s: State)
    requires |s.messages| > 0 && |Last(s).toolCalls| > 0 && newDialogState != Pop
    ensures var r := Apply(s, SpecificEntryNode(entryMessage, newDialogState, s));
      && LastDialogState(r.dialogState) == newDialogState
      && r.dialogState == s.dialogState + [newDialogState]
      && Last(r).toolCallId == Some(Last(s).toolCalls[0].id)
  {
  }

  /** `user_info`: resets the user info to the empty string. */
  function UserInfo(s: State): (u: Update)
    ensures Apply(s, u) == s.(userInfo := "")
  {
    Update([], None, None, Some(""))
  }

  /** What one model call did: replied with a message, or raised. */
  datatype LlmOutcome = Replied(reply: Message) | Raised

  /** `Assistant.__call__`: the loop always breaks after one attempt; an
      exception becomes the fixed apology. Either way the agent's name is
      recorded. */
  function AssistantCall(agentName: string, outcome: LlmOutcome): (u: Update)
    ensures u.agent == Some(agentName)
    ensures |u.messages| == 1
    ensures outcome.Replied? ==> u.messages[0] == outcome.reply
    ensures outcome.Raised? ==> u.messages[0] == Message(Ai, Apology, [], None, None)
    ensures u.dialogState.None? && u.userInfo.None?
  {
    match outcome
    case Replied(m) => Update([m], Some(agentName), None, None)
    case Raised => Update([Message(Ai, Apology, [], None, None)], Some(agentName), None, None)
  }

  const RouteSep := "ROUTE "

  /** `route_tool_response`: a model message with no text and a single tool
      call, with no arguments, named by what follows the last `"ROUTE "` in
      the last message. The two ids are the `uuid4` values drawn. */
  function RouteToolResponse(s: State, msgId: string, callId: string): (u: Update)
    requires |s.messages| > 0
    ensures |u.messages| == 1
    ensures var m := u.messages[0];
      && m.role == Ai && m.content == "" && m.id == Some(msgId)
      && |m.toolCalls| == 1
      && m.toolCalls[0].id == callId && m.toolCalls[0].args == map[]
      && !Contains(m.toolCalls[0].name, RouteSep)
    ensures u.agent.None? && u.dialogState.None? && u.userInfo.None?
  {
    var content := Last(s).content;
    LastPieceSpec(content, RouteSep);
    var name := LastPiece(content, RouteSep);
    Update([Message(Ai, "", [ToolCall(name, callId, map[])], None, Some(msgId))], None, None, None)
  }

  /** The tool named: the whole text when it has no `"ROUTE "`, and
      otherwise a suffix that directly follows an occurrence of it. */
  lemma RoutedToolName(s: State, msgId: string, callId: string)
    requires |s.messages| > 0
    ensures var content := Last(s).content;
      var name := RouteToolResponse(s, msgId, callId).messages[0].toolCalls[0].name;
      && (!Contains(content, RouteSep) <==> name == content)
      && (Contains(content, RouteSep) ==>
            |name| + |RouteSep| <= |content|
            && content[|content| - |name| - |RouteSep|..] == RouteSep + name)
  {
    var content := Last(s).content;
    LastPieceSpec(content, RouteSep);
    var name := LastPiece(content, RouteSep);
    if Contains(content, RouteSep) {
      var k := |content| - |name| - |RouteSep|;
      assert content[k..] == content[k..|content| - |name|] + content[|content| - |name|..];
    }
  }

  /** `"ROUTE <name>"` with no second marker routes to `<name>`. */
  lemma RouteNamesTool(s: State, msgId: string, callId: string, name: string)
    requires |s.messages| > 0 && Last(s).content == RouteSep + name && !Contains(name, RouteSep)
    ensures RouteToolResponse(s, msgId, callId).messages[0].toolCalls[0].name == name
  {
    LastPieceAfterSep(RouteSep, name);
  }

  /** `tool_msg_to_ai_msg`: the last message's text as a model message. */
  function ToolMsgToAiMsg(s: State, msgId: string): (u: Update)
    requires |s.messages| > 0
    ensures u.messages == [Message(Ai, Last(s).content, [], None, Some(msgId))]
    ensures u.agent.None? && u.dialogState.None? && u.userInfo.None?
  {
    Update([Message(Ai, Last(s).content, [], None, Some(msgId))], None, None, None)
  }

  const DeterministicMarker := "DETERMINISTIC"
  const RouteMarker := "ROUTE"

  /** `route_sensitive_tools`: deterministic tool output goes straight to
      the caller, a routing request is turned into a tool call, and
      anything else returns to the current dialog. A text with both
      markers counts as deterministic. */
  function RouteSensitiveTools(s: State): (r: string)
    requires |s.messages| > 0
    ensures Contains(Last(s).content, DeterministicMarker) ==> r == "tool_msg_to_ai_msg"
    ensures !Contains(Last(s).content, DeterministicMarker) && Contains(Last(s).content, RouteMarker) ==>
      r == "route_tool_response"
    ensures !Contains(Last(s).content, DeterministicMarker) && !Contains(Last(s).content, RouteMarker) ==>
      r == LastDialogState(s.dialogState)
  {
    var content := Last(s).content;
    if Contains(content, DeterministicMarker) then "tool_msg_to_ai_msg"
    else if Contains(content, RouteMarker) then "route_tool_response"
    else LastDialogState(s.dialogState)
  }

  /** `get_live_agent_string`: the goodbye in the call's language, English
      for `"en"` and Korean for anything else. */
  function LiveAgentString(language: string): (r: string)
    ensures language == "en" ==> r == LiveAgentEnglish
    ensures language != "en" ==> r == LiveAgentKorean
  {
    if language == "en" then LiveAgentEnglish else LiveAgentKorean
  }

  const LiveAgentEnglish := "A live agent will call you back. Thank you, and goodbye."
  const LiveAgentKorean := "라이브 상담원이 다시 전화드릴 예정입니다. 이용해 주셔서 감사합니다. 안녕히 계세요."
}

=== FILE: llm_generator.dfy ===
/** The streaming sentence segmenter: one turn's event stream folded into
    the sequence of sentences handed to speech synthesis. The async
    generator becomes a pure fold over a finite `seq<Event>`; `random.choice`
    becomes a sequence of oracle picks. */
module LlmGenerator {
  import opened Text
  import opened Wrappers
  import opened SplitPattern

  /** The control marker tools put in front of final user-facing text. */
  const Marker: string := "DETERMINISTIC"

  /** The per-turn filler pool, set afresh at the start of every turn. */
  const Fillers: seq<string> := [
    "Let me check that for you",
    "I'll need a moment to review this",
    "Please bear with me while I look into that"
  ]

  /** A reference to an internal function leaked into model text. */
  predicate Leaks(s: string) {
    Contains(s, "functions.") || Contains(s, "escalate_to_human")
  }

  /** `x.replace("DETERMINISTIC", "").strip()`. */
  function Clean(s: string): (r: string)
    ensures IsStripped(r) && |r| <= |s|
  {
    Strip(ReplaceAll(s, Marker, ""))
  }

  /** Python's `list.remove(x)`: drops the first occurrence of `x`. */
  function RemoveFirst(pool: seq<string>, x: string): (r: seq<string>)
    requires x in pool
    ensures multiset(r) + multiset{x} == multiset(pool)
    ensures |r| + 1 == |pool|
  {
    assert pool == [pool[0]] + pool[1..];
    if pool[0] == x then pool[1..]
    else [pool[0]] + RemoveFirst(pool[1..], x)
  }

  /** The oracle standing for `random.choice`: the next pick, reduced into
      range, chooses the filler; index 0 once the picks run out. Every
      outcome of `random.choice` is some pick. */
  function PickIndex(picks: seq<nat>, n: nat): (k: nat)
    requires n > 0
    ensures k < n
  {
    if |picks| == 0 then 0 else picks[0] % n
  }

  function RestOfPicks(picks: seq<nat>): seq<nat> {
    if |picks| == 0 then [] else picks[1..]
  }

  datatype Filtered = Filtered(text: string, pool: seq<string>, picks: seq<nat>)

  /** `remove_functions_from_output`: a leaking response is replaced by a
      filler drawn from the pool, which loses it; `None` is the IndexError
      `random.choice` raises on an empty pool. */
  function RemoveFunctions(response: string, pool: seq<string>, picks: seq<nat>): (r: Option<Filtered>)
    ensures !Leaks(response) ==> r == Some(Filtered(response, pool, picks))
    ensures Leaks(response) ==> (r.None? <==> |pool| == 0)
    ensures Leaks(response) && r.Some? ==>
      && r.value.text in pool
      && multiset(r.value.pool) + multiset{r.value.text} == multiset(pool)
      && |r.value.pool| + 1 == |pool|
  {
    if !Leaks(response) then Some(Filtered(response, pool, picks))
    else if |pool| == 0 then None
    else
      var filler := pool[PickIndex(picks, |pool|)];
      Some(Filtered(filler, RemoveFirst(pool, filler), RestOfPicks(picks)))
  }

  /** The state of the inner split loop when it exits: the remaining
      buffer, pool and picks, the sentences yielded, the fillers drawn, and
      whether an exception ended the turn. */
  datatype Loop = Loop(
    buffer: string,
    pool: seq<string>,
    picks: seq<nat>,
    emitted: seq<string>,
    draws: seq<string>,
    raised: bool)

  /** The `while True` loop run after each text chunk. */
  function SplitLoop(buf: string, pool: seq<string>, picks: seq<nat>): (r: Loop)
    ensures !r.raised ==> MatchEnd(r.buffer).None? || '$' in r.buffer
    ensures '$' in buf ==> r == Loop(buf, pool, picks, [], [], false)
    ensures forall x :: x in r.emitted ==> IsStripped(x)
    decreases |pool|, |buf|
  {
    match MatchEnd(buf)
    case None => Loop(buf, pool, picks, [], [], false)
    case Some(end) =>
      if '$' in buf then Loop(buf, pool, picks, [], [], false)
      else
        match RemoveFunctions(buf, pool, picks)
        case None => Loop(buf, pool, picks, [], [], true)
        case Some(f) =>
          var cut := if end <= |f.text| then end else |f.text|;
          var sentence := Clean(f.text[..cut]);
          var rest := Clean(f.text[cut..]);
          var drawn := if Leaks(buf) then [f.text] else [];
          var next := SplitLoop(rest, f.pool, f.picks);
          Loop(next.buffer, next.pool, next.picks,
               [sentence] + next.emitted, drawn + next.draws, next.raised)
  }

  /** Fillers are drawn without replacement: what the loop drew plus what
      is left of the pool is exactly the pool it started with. */
  lemma {:induction false} SplitLoopDraws(buf: string, pool: seq<string>, picks: seq<nat>)
    ensures var r := SplitLoop(buf, pool, picks);
      multiset(r.draws) + multiset(r.pool) == multiset(pool)
    decreases |pool|, |buf|
  {
    match MatchEnd(buf)
    case None =>
    case Some(end) =>
      if '$' !in buf {
        match RemoveFunctions(buf, pool, picks)
        case None =>
        case Some(f) =>
          var cut := if end <= |f.text| then end else |f.text|;
          SplitLoopDraws(Clean(f.text[cut..]), f.pool, f.picks);
      }
  }

  /** One split: the loop hands on the filtered text up to the end of the
      match (all of it when that text is shorter), cleaned, keeps the
      cleaned remainder as the buffer, and goes on from there. */
  lemma SplitLoopStep(buf: string, pool: seq<string>, picks: seq<nat>)
    requires MatchEnd(buf).Some? && '$' !in buf && RemoveFunctions(buf, pool, picks).Some?
    ensures var f := RemoveFunctions(buf, pool, picks).value;
      var e := MatchEnd(buf).value;
      var cut := if e <= |f.text| then e else |f.text|;
      var r := SplitLoop(buf, pool, picks);
      var next := SplitLoop(Clean(f.text[cut..]), f.pool, f.picks);
      && r.emitted == [Clean(f.text[..cut])] + next.emitted
      && r.draws == (if Leaks(buf) then [f.text] else []) + next.draws
      && r.buffer == next.buffer && r.pool == next.pool && r.raised == next.raised
  {
  }

  /** A leak at a split point swaps the whole buffer for a filler, but the
      cut is still made at the end of the match in the buffer: a filler
      longer than that is truncated, and the sentence handed on is its
      cleaned prefix. */
  lemma LeakTruncatesFiller(buf: string, pool: seq<string>, picks: seq<nat>)
    requires MatchEnd(buf).Some? && '$' !in buf && Leaks(buf) && |pool| > 0
    ensures var filler := pool[PickIndex(picks, |pool|)];
      var e := MatchEnd(buf).value;
      var r := SplitLoop(buf, pool, picks);
      && |r.emitted| > 0 && |r.draws| > 0 && r.draws[0] == filler
      && (e <= |filler| ==> r.emitted[0] == Clean(filler[..e]))
      && (e > |filler| ==> r.emitted[0] == Clean(filler))
  {
    var filler := pool[PickIndex(picks, |pool|)];
    assert filler[..|filler|] == filler;
    SplitLoopStep(buf, pool, picks);
  }

  /** One part of a list-valued chunk: its `type` and `text`. */
  datatype Part = Part(kind: string, text: string)

  /** A streamed chunk's `content`: a string or a list of parts. */
  datatype Chunk = TextChunk(text: string) | PartsChunk(parts: seq<Part>)

  /** One element iterated over in a chain-end output: a node's update
      (a dict keyed by the node name) or a bare string key. */
  datatype ChainItem = NodeUpdate(node: string, content: string) | KeyItem(key: string)

  /** The events of one turn's stream. `ModelEnd(false)` is a model-end
      event whose generation lookup raises; `StreamError` is the event
      source itself raising. */
  datatype Event =
    | ModelStream(chunk: Chunk)
    | ModelEnd(hasGeneration: bool)
    | ToolEnd(output: Option<string>)
    | ChainEnd(items: seq<ChainItem>)
    | OtherEvent
    | StreamError

  /** The text a chunk appends to the buffer, if any: nothing for an empty
      string, an empty part list, or a list whose first part is not text;
      otherwise the string itself or the first part's text. */
  function ChunkText(c: Chunk): (r: Option<string>)
    ensures r.None? <==>
      || (c.TextChunk? && c.text == "")
      || (c.PartsChunk? && (|c.parts| == 0 || c.parts[0].kind != "text"))
    ensures c.TextChunk? && r.Some? ==> r.value == c.text
    ensures c.PartsChunk? && r.Some? ==> |c.parts| > 0 && r.value == c.parts[0].text
  {
    match c
    case TextChunk(t) => if t == "" then None else Some(t)
    case PartsChunk(ps) =>
      if |ps| == 0 || ps[0].kind != "text" then None else Some(ps[0].text)
  }

  /** The generator's state: buffer, filler pool, remaining picks, the
      sentences yielded so far, the fillers drawn, and whether it ended. */
  datatype Gen = Gen(
    buffer: string,
    pool: seq<string>,
    picks: seq<nat>,
    out: seq<string>,
    draws: seq<string>,
    done: bool)

  function Start(picks: seq<nat>): Gen {
    Gen("", Fillers, picks, [], [], false)
  }

  /** A chain-end event: the first `sensitive_action` update is yielded
      (marker removed, not stripped) and ends the turn; a string key that
      mentions `sensitive_action` is indexed like a dict and raises. */
  function ChainStep(g: Gen, items: seq<ChainItem>): (r: Gen)
    requires !g.done
    ensures r.buffer == g.buffer && r.pool == g.pool && r.draws == g.draws
    ensures r.out == g.out || (r.done && |r.out| == |g.out| + 1 && g.out <= r.out)
    decreases |items|
  {
    if |items| == 0 then g
    else
      match items[0]
      case NodeUpdate(node, content) =>
        if node == "sensitive_action" then
          g.(out := g.out + [ReplaceAll(content, Marker, "")], done := true)
        else ChainStep(g, items[1..])
      case KeyItem(key) =>
        if Contains(key, "sensitive_action") then g.(done := true)
        else ChainStep(g, items[1..])
  }

  /** An item that ends the turn when a chain-end event reaches it. */
  predicate StopsChain(item: ChainItem) {
    match item
    case NodeUpdate(node, _) => node == "sensitive_action"
    case KeyItem(key) => Contains(key, "sensitive_action")
  }

  /** The chain-end step is decided by the first item that stops it: a
      `sensitive_action` update yields its content with the marker removed,
      a key mentioning `sensitive_action` ends the turn without output, and
      with no such item nothing changes. */
  lemma ChainStepFirstStop(g: Gen, items: seq<ChainItem>)
    requires !g.done
    ensures (forall k | 0 <= k < |items| :: !StopsChain(items[k])) ==> ChainStep(g, items) == g
    ensures forall k | 0 <= k < |items| && StopsChain(items[k]) &&
                       (forall j | 0 <= j < k :: !StopsChain(items[j])) ::
      && ChainStep(g, items).done
      && (items[k].NodeUpdate? ==>
            ChainStep(g, items).out == g.out + [ReplaceAll(items[k].content, Marker, "")])
      && (items[k].KeyItem? ==> ChainStep(g, items).out == g.out)
  {
    if forall k | 0 <= k < |items| :: !StopsChain(items[k]) {
      ChainStepNoStop(g, items);
    }
    forall k | 0 <= k < |items| && StopsChain(items[k]) &&
               (forall j | 0 <= j < k :: !StopsChain(items[j]))
      ensures && ChainStep(g, items).done
              && (items[k].NodeUpdate? ==>
                    ChainStep(g, items).out == g.out + [ReplaceAll(items[k].content, Marker, "")])
              && (items[k].KeyItem? ==> ChainStep(g, items).out == g.out)
    {
      ChainStepSkips(g, items, k);
      assert items[k..][0] == items[k];
    }
  }

  /** Items that do not stop the chain are passed over. */
  lemma {:induction false} ChainStepNoStop(g: Gen, items: seq<ChainItem>)
    requires !g.done
    requires forall k | 0 <= k < |items| :: !StopsChain(items[k])
    ensures ChainStep(g, items) == g
    decreases |items|
  {
    if |items| > 0 {
      assert !StopsChain(items[0]);
      var rest := items[1..];
      forall k | 0 <= k < |rest| ensures !StopsChain(rest[k]) {
        assert rest[k] == items[k + 1];
      }
      ChainStepNoStop(g, rest);
    }
  }

  /** The chain step starts afresh at the first item that stops it. */
  lemma {:induction false} ChainStepSkips(g: Gen, items: seq<ChainItem>, k: nat)
    requires !g.done && k < |items|
    requires forall j | 0 <= j < k :: !StopsChain(items[j])
    ensures ChainStep(g, items) == ChainStep(g, items[k..])
    decreases k
  {
    if k > 0 {
      assert !StopsChain(items[0]);
      var rest := items[1..];
      forall j | 0 <= j < k - 1 ensures !StopsChain(rest[j]) {
        assert rest[j] == items[j + 1];
      }
      ChainStepSkips(g, rest, k - 1);
      assert rest[k - 1..] == items[k..];
    }
  }

  /** One iteration of the `async for` over the event stream. */
  function Feed(g: Gen, e: Event): (r: Gen)
    requires !g.done
    ensures g.out <= r.out
    ensures multiset(r.draws) + multiset(r.pool) == multiset(g.draws) + multiset(g.pool)
  {
    match e
    case ModelStream(c) =>
      (match ChunkText(c)
       case None => g
       case Some(t) =>
         var l := SplitLoop(g.buffer + t, g.pool, g.picks);
         SplitLoopDraws(g.buffer + t, g.pool, g.picks);
         Gen(l.buffer, l.pool, l.picks, g.out + l.emitted, g.draws + l.draws, l.raised))
    case ModelEnd(hasGeneration) => if hasGeneration then g else g.(done := true)
    case ToolEnd(output) =>
      (match output
       case None => g
       case Some(c) =>
         var content := Strip(c);
         if Contains(content, Marker) then g.(out := g.out + [Clean(content)], done := true)
         else g)
    case ChainEnd(items) => ChainStep(g, items)
    case OtherEvent => g
    case StreamError => g.(done := true)
  }

  /** The `async for` loop, stopping at the first `return` or exception. */
  function Run(g: Gen, events: seq<Event>): (r: Gen)
    ensures g.out <= r.out
    ensures multiset(r.draws) + multiset(r.pool) == multiset(g.draws) + multiset(g.pool)
    ensures g.done ==> r == g
    decreases |events|
  {
    if g.done || |events| == 0 then g
    else Run(Feed(g, events[0]), events[1..])
  }

  /** After the stream is exhausted: a non-blank buffer is leak-filtered and
      yielded stripped (the marker is not removed here). */
  function Finish(g: Gen): (r: Gen)
    ensures r.done && g.out <= r.out && |r.out| <= |g.out| + 1
    ensures g.done ==> r == g
    ensures multiset(r.draws) + multiset(r.pool) == multiset(g.draws) + multiset(g.pool)
    ensures !g.done && !AllSpace(g.buffer) && !Leaks(g.buffer) ==>
      r.out == g.out + [Strip(g.buffer)]
    ensures !g.done && !AllSpace(g.buffer) && Leaks(g.buffer) && |g.pool| > 0 ==>
      && |r.draws| == |g.draws| + 1
      && r.draws[|g.draws|] in g.pool
      && r.out == g.out + [Strip(r.draws[|g.draws|])]
    ensures g.done || AllSpace(g.buffer) || (Leaks(g.buffer) && |g.pool| == 0) ==> r.out == g.out
  {
    if g.done then g
    else if Strip(g.buffer) == "" then g.(done := true)
    else
      match RemoveFunctions(g.buffer, g.pool, g.picks)
      case None => g.(done := true)
      case Some(f) =>
        var drawn := if Leaks(g.buffer) then [f.text] else [];
        Gen(f.text, f.pool, f.picks, g.out + [Strip(f.text)], g.draws + drawn, true)
  }

  /** The whole turn from a fresh pool of the three fillers: it has ended,
      and what the pool lost is exactly what was drawn. */
  function Final(events: seq<Event>, picks: seq<nat>): (r: Gen)
    ensures r.done
    ensures multiset(r.draws) + multiset(r.pool) == multiset(Fillers)
  {
    Finish(Run(Start(picks), events))
  }

  /** The sentences the generator yields for one turn. */
  function Segment(events: seq<Event>, picks: seq<nat>): (r: seq<string>)
    ensures Run(Start(picks), events).out <= r
    ensures |r| <= |Run(Start(picks), events).out| + 1
  {
    Final(events, picks).out
  }

  /** The first sentence and the rest of the generator. */
  datatype Completion = Completion(first: string, rest: seq<string>)

  /** `anext` on a generator that yields `sentences`: the first sentence
      and the rest, or StopAsyncIteration when there is none. */
  function Anext(sentences: seq<string>): (r: Result<Completion, string>)
    ensures r.Failure? <==> sentences == []
    ensures r.Success? ==> [r.value.first] + r.value.rest == sentences
  {
    if |sentences| == 0 then Failure("StopAsyncIteration")
    else Success(Completion(sentences[0], sentences[1..]))
  }

  /** `chat_completion`: the first sentence is awaited before the generator
      is handed back. */
  function ChatCompletion(events: seq<Event>, picks: seq<nat>): (r: Result<Completion, string>)
    ensures r.Failure? <==> Segment(events, picks) == []
    ensures r.Success? ==> [r.value.first] + r.value.rest == Segment(events, picks)
  {
    Anext(Segment(events, picks))
  }
}

=== FILE: segmenter_examples.dfy ===
/** Concrete turns through the segmenter, and the shape of a sentence cut at
    a split point. */
module SegmenterExamples {
  import opened Text
  import opened Wrappers
  import opened SplitPattern
  import opened LlmGenerator

  /** Where `strip()` ends a string whose last non-blank character is `x[i]`. */
  lemma StripEndsAt(x: string, i: nat)
    requires i < |x| && !IsSpace(x[i])
    requires forall k :: i < k < |x| ==> IsSpace(x[k])
    ensures |Strip(x)| > 0 && Strip(x)[|Strip(x)| - 1] == x[i]
  {
    var a := LeadEnd(x, 0);
    var b := TrailStart(x, a, |x|);
    assert a <= i;
    assert b == i + 1;
  }

  /** With no leak, no `$` and no marker in the buffer, the first sentence
      the loop yields is the buffer up to the end of the match, stripped:
      it ends with the terminal mark the match started at. */
  lemma CutSentenceEndsAtMark(buf: string, pool: seq<string>, picks: seq<nat>)
    requires MatchEnd(buf).Some? && '$' !in buf && !Leaks(buf) && !Contains(buf, Marker)
    ensures var r := SplitLoop(buf, pool, picks);
      var e := MatchEnd(buf).value;
      && |r.emitted| > 0
      && r.emitted[0] == Strip(buf[..e])
      && |r.emitted[0]| > 0
      && IsTerminal(r.emitted[0][|r.emitted[0]| - 1])
  {
    var i := FindSplit(buf, 0).value;
    var x := buf[..MatchEnd(buf).value];
    FirstSentence(buf, pool, picks);
    NotContainsPrefix(buf, Marker, |x|);
    ReplaceAbsent(x, Marker, "");
    TerminalNotSpace(x[i]);
    StripEndsAt(x, i);
  }

  lemma TerminalNotSpace(c: char)
    requires IsTerminal(c)
    ensures !IsSpace(c)
  {
  }

  lemma FirstSentence(buf: string, pool: seq<string>, picks: seq<nat>)
    requires MatchEnd(buf).Some? && '$' !in buf && !Leaks(buf)
    ensures var i := FindSplit(buf, 0).value;
      var e := MatchEnd(buf).value;
      && e == LeadEnd(buf, i + 1)
      && |SplitLoop(buf, pool, picks).emitted| > 0
      && SplitLoop(buf, pool, picks).emitted[0] == Clean(buf[..e])
  {
    assert RemoveFunctions(buf, pool, picks) == Some(Filtered(buf, pool, picks));
  }

  /** Neither leak pattern can occur without an `f` and an `_`. */
  lemma NoLeakWithout(s: string)
    requires forall i | 0 <= i < |s| :: s[i] != 'f' && s[i] != '_'
    ensures !Leaks(s)
  {
    CharAbsentNotContains(s, "functions.", 0);
    CharAbsentNotContains(s, "escalate_to_human", 8);
  }

  /** A single chunk with a `$` in it is never split: it comes out whole
      when the stream ends. */
  lemma DollarChunkFlushedWhole(s: string, picks: seq<nat>)
    requires '$' in s && IsStripped(s) && s != "" && !Leaks(s)
    ensures Segment([ModelStream(TextChunk(s))], picks) == [s]
  {
    var g := Feed(Start(picks), ModelStream(TextChunk(s)));
    assert "" + s == s;
    assert g == Gen(s, Fillers, picks, [], [], false);
    assert Run(Start(picks), [ModelStream(TextChunk(s))]) == g;
    StripStripped(s);
    assert !IsSpace(s[0]);
  }

  /** The decimal example: one sentence, not two. */
  lemma TotalWithDecimalIsOneSentence(picks: seq<nat>)
    ensures Segment([ModelStream(TextChunk("Your total is $300.00. Anything else?"))], picks)
      == ["Your total is $300.00. Anything else?"]
  {
    TotalText();
    NoLeakWithout("Your total is $300.00. Anything else?");
    DollarChunkFlushedWhole("Your total is $300.00. Anything else?", picks);
  }

  /** A whole-dollar amount blocks the split just the same. */
  lemma WholeDollarIsOneSentence(picks: seq<nat>)
    ensures Segment([ModelStream(TextChunk("It costs $5 today. Thanks."))], picks)
      == ["It costs $5 today. Thanks."]
  {
    WholeText();
    NoLeakWithout("It costs $5 today. Thanks.");
    DollarChunkFlushedWhole("It costs $5 today. Thanks.", picks);
  }

  lemma TotalText()
    ensures var s := "Your total is $300.00. Anything else?";
      && s[14] == '$' && IsStripped(s)
      && forall i | 0 <= i < |s| :: s[i] != 'f' && s[i] != '_'
  {
  }

  lemma WholeText()
    ensures var s := "It costs $5 today. Thanks.";
      && s[9] == '$' && IsStripped(s)
      && forall i | 0 <= i < |s| :: s[i] != 'f' && s[i] != '_'
  {
  }

  /** Without a terminal mark there is nothing to split at. */
  lemma NoTerminalNoMatch(s: string)
    requires forall i | 0 <= i < |s| :: !IsTerminal(s[i])
    ensures MatchEnd(s).None?
  {
  }

  lemma OkThenSplits(buf: string)
    requires buf == "Ok. Then functions.x"
    ensures MatchEnd(buf) == Some(4)
  {
    assert !SplitPoint(buf, 0) && !SplitPoint(buf, 1);
    assert LeadEnd(buf, 3) == 4;
    assert SplitPoint(buf, 2);
    assert FindSplit(buf, 0) == Some(2);
  }

  lemma OkThenLeaks(buf: string)
    requires buf == "Ok. Then functions.x"
    ensures Leaks(buf) && '$' !in buf
  {
    assert buf[9..19] == "functions.";
    OccurrenceContains(buf, "functions.", 9);
  }

  lemma LetHead(head: string)
    requires head == "Let "
    ensures Clean(head) == "Let"
  {
    ShortNotContains(head, Marker);
    ReplaceAbsent(head, Marker, "");
    assert LeadEnd(head, 0) == 0 && TrailStart(head, 0, 4) == 3;
    assert head[0..3] == "Let";
  }

  lemma LetTail(tail: string)
    requires tail == "me check that for you"
    ensures Clean(tail) == tail
  {
    assert Marker[0] !in tail;
    CharAbsentNotContains(tail, Marker, 0);
    ReplaceAbsent(tail, Marker, "");
    StripStripped(tail);
  }

  lemma LetTailUnsplit(tail: string)
    requires tail == "me check that for you"
    ensures MatchEnd(tail).None?
  {
    NoTerminalNoMatch(tail);
  }

  lemma LetPieces(filler: string)
    requires filler == Fillers[0]
    ensures filler[..4] == "Let " && filler[4..] == "me check that for you"
  {
  }

  /** A leaking buffer whose first sentence is short: the filler drawn in
      its place is cut at the buffer's match end, so only its first word is
      spoken and the rest of it stays in the buffer. */
  lemma FillerCutShort(buf: string)
    requires buf == "Ok. Then functions.x"
    ensures var r := SplitLoop(buf, Fillers, [0]);
      && r.emitted == ["Let"]
      && r.buffer == "me check that for you"
      && r.draws == [Fillers[0]]
  {
    OkThenSplits(buf);
    OkThenLeaks(buf);
    var filler := Fillers[0];
    assert PickIndex([0], |Fillers|) == 0;
    var f := RemoveFunctions(buf, Fillers, [0]).value;
    assert f.text == filler;
    LetPieces(filler);
    var head, tail := filler[..4], filler[4..];
    LetHead(head);
    LetTail(tail);
    LetTailUnsplit(tail);
    SplitLoopStep(buf, Fillers, [0]);
    var next := SplitLoop(tail, f.pool, f.picks);
    assert next == Loop(tail, f.pool, f.picks, [], [], false);
  }

  lemma ReplaceMiss(s: string, p: string, rep: string)
    requires |p| > 0 && |s| > 0 && !StartsWith(s, p)
    ensures ReplaceAll(s, p, rep) == [s[0]] + ReplaceAll(s[1..], p, rep)
  {
  }

  lemma ReplaceHit(s: string, p: string, rep: string)
    requires |p| > 0 && StartsWith(s, p)
    ensures ReplaceAll(s, p, rep) == rep + ReplaceAll(s[|p|..], p, rep)
  {
  }

  /** Replacing in a string that starts with no occurrence of `p` at any
      index of `pre` keeps `pre` and replaces in the rest. */
  lemma {:induction false} ReplaceKeepsPrefix(pre: string, rest: string, p: string, rep: string)
    requires |p| > 0
    requires forall k :: 0 <= k < |pre| ==> !StartsWith((pre + rest)[k..], p)
    ensures ReplaceAll(pre + rest, p, rep) == pre + ReplaceAll(rest, p, rep)
    decreases |pre|
  {
    if |pre| > 0 {
      var s := pre + rest;
      assert !StartsWith(s[0..], p);
      assert s[1..] == pre[1..] + rest;
      forall k | 0 <= k < |pre[1..]|
        ensures !StartsWith((pre[1..] + rest)[k..], p)
      {
        assert (pre[1..] + rest)[k..] == s[k + 1..];
      }
      ReplaceKeepsPrefix(pre[1..], rest, p, rep);
      ReplaceMiss(s, p, rep);
      assert [pre[0]] + (pre[1..] + ReplaceAll(rest, p, rep)) == pre + ReplaceAll(rest, p, rep);
    } else {
      assert pre + rest == rest;
    }
  }

  lemma NoMarkerInsideDet(pre: string, rest: string)
    requires pre == "DET" && |rest| > 0 && rest[0] == 'D'
    ensures forall k :: 0 <= k < |pre| ==> !StartsWith((pre + rest)[k..], Marker)
  {
    forall k | 0 <= k < |pre| ensures !StartsWith((pre + rest)[k..], Marker) {
      assert (pre + rest)[k..][3 - k] == 'D' != Marker[3 - k];
    }
  }

  lemma RemoveWholeMarker(tail: string)
    requires |tail| < |Marker|
    ensures ReplaceAll(Marker + tail, Marker, "") == tail
  {
    var rest := Marker + tail;
    assert rest[|Marker|..] == tail && rest[..|Marker|] == Marker;
    ShortNotContains(tail, Marker);
    ReplaceAbsent(tail, Marker, "");
    ReplaceHit(rest, Marker, "");
  }

  /** Python's replace makes one pass, so removing the marker from a string
      that wraps one marker around another leaves a marker behind. */
  lemma MarkerCanSurviveRemoval(pre: string, tail: string)
    requires pre == "DET" && tail == "ERMINISTIC"
    ensures ReplaceAll(pre + Marker + tail, Marker, "") == Marker
  {
    NoMarkerInsideDet(pre, Marker + tail);
    ReplaceKeepsPrefix(pre, Marker + tail, Marker, "");
    RemoveWholeMarker(tail);
    assert pre + Marker + tail == pre + (Marker + tail);
    assert pre + tail == Marker;
  }
}

=== FILE: segmenter_properties.dfy ===
/** What one turn of the segmenter guarantees, stated over whole event
    streams. */
module SegmenterProperties {
  import opened Text
  import opened Wrappers
  import opened SplitPattern
  import opened LlmGenerator

  /** Folding over two pieces of a stream is folding over the whole. */
  lemma {:induction false} RunAppend(g: Gen, a: seq<Event>, b: seq<Event>)
    ensures Run(g, a + b) == Run(Run(g, a), b)
    decreases |a|
  {
    if |a| == 0 {
      assert a + b == b;
    } else if !g.done {
      assert (a + b)[0] == a[0];
      assert (a + b)[1..] == a[1..] + b;
      RunAppend(Feed(g, a[0]), a[1..], b);
    }
  }

  /** Sentences come out in generation order: whatever a prefix of the
      stream yields is a prefix of what the whole turn yields, so sentence
      n+1 is never available before sentence n. */
  lemma OutputsInOrder(events: seq<Event>, picks: seq<nat>, k: nat)
    requires k <= |events|
    ensures Run(Start(picks), events[..k]).out <= Segment(events, picks)
  {
    assert events == events[..k] + events[k..];
    RunAppend(Start(picks), events[..k], events[k..]);
  }

  /** The turn seen as the events before `k`, the event at `k`, and the rest:
      if the event at `k` ends the turn, the rest is never looked at. */
  lemma StopsAt(events: seq<Event>, picks: seq<nat>, k: nat)
    requires k < |events|
    requires !Run(Start(picks), events[..k]).done
    requires Feed(Run(Start(picks), events[..k]), events[k]).done
    ensures Segment(events, picks) == Feed(Run(Start(picks), events[..k]), events[k]).out
  {
    var g := Run(Start(picks), events[..k]);
    var h := Feed(g, events[k]);
    SplitAround(events, k);
    RunAppend(Start(picks), events[..k], [events[k]] + events[k + 1..]);
    RunCons(g, events[k], events[k + 1..]);
    assert Run(h, events[k + 1..]) == h;
    assert Finish(h) == h;
  }

  lemma SplitAround<T>(s: seq<T>, k: nat)
    requires k < |s|
    ensures s == s[..k] + ([s[k]] + s[k + 1..])
  {
    assert s[k..] == [s[k]] + s[k + 1..];
    assert s == s[..k] + s[k..];
  }

  lemma RunCons(g: Gen, e: Event, rest: seq<Event>)
    requires !g.done
    ensures Run(g, [e] + rest) == Run(Feed(g, e), rest)
  {
    assert ([e] + rest)[1..] == rest;
  }

  /** A tool result carrying the marker yields its text, marker removed,
      as the last sentence of the turn; later events are never looked at. */
  lemma DeterministicToolEndsTurn(events: seq<Event>, picks: seq<nat>, k: nat, c: string)
    requires k < |events| && events[k] == ToolEnd(Some(c))
    requires Contains(Strip(c), Marker)
    requires !Run(Start(picks), events[..k]).done
    ensures Segment(events, picks) == Run(Start(picks), events[..k]).out + [Clean(Strip(c))]
  {
    FeedDeterministicTool(Run(Start(picks), events[..k]), c);
    StopsAt(events, picks, k);
  }

  lemma FeedDeterministicTool(g: Gen, c: string)
    requires !g.done && Contains(Strip(c), Marker)
    ensures Feed(g, ToolEnd(Some(c))) == g.(out := g.out + [Clean(Strip(c))], done := true)
  {
  }

  /** The `sensitive_action` node's message, marker removed, is the last
      sentence of the turn. */
  lemma SensitiveActionEndsTurn(events: seq<Event>, picks: seq<nat>, k: nat,
                                content: string, items: seq<ChainItem>)
    requires k < |events| && events[k] == ChainEnd([NodeUpdate("sensitive_action", content)] + items)
    requires !Run(Start(picks), events[..k]).done
    ensures Segment(events, picks) ==
      Run(Start(picks), events[..k]).out + [ReplaceAll(content, Marker, "")]
  {
    FeedSensitiveAction(Run(Start(picks), events[..k]), content, items);
    StopsAt(events, picks, k);
  }

  lemma FeedSensitiveAction(g: Gen, content: string, items: seq<ChainItem>)
    requires !g.done
    ensures var e := ChainEnd([NodeUpdate("sensitive_action", content)] + items);
      Feed(g, e) == g.(out := g.out + [ReplaceAll(content, Marker, "")], done := true)
  {
  }

  /** A leak at a split point with the filler pool used up makes
      `random.choice` raise: the turn ends without another sentence. */
  lemma ExhaustedPoolEndsTurn(events: seq<Event>, picks: seq<nat>, k: nat, t: string)
    requires k < |events| && events[k] == ModelStream(TextChunk(t)) && t != ""
    requires var g := Run(Start(picks), events[..k]);
      && !g.done && |g.pool| == 0
      && MatchEnd(g.buffer + t).Some? && '$' !in g.buffer + t && Leaks(g.buffer + t)
    ensures Segment(events, picks) == Run(Start(picks), events[..k]).out
  {
    FeedExhaustedPool(Run(Start(picks), events[..k]), t);
    StopsAt(events, picks, k);
  }

  lemma FeedExhaustedPool(g: Gen, t: string)
    requires !g.done && |g.pool| == 0 && t != ""
    requires MatchEnd(g.buffer + t).Some? && '$' !in g.buffer + t && Leaks(g.buffer + t)
    ensures var h := Feed(g, ModelStream(TextChunk(t))); h.done && h.out == g.out
  {
  }

  /** Once a `$` is in the buffer it stays there and no further sentence is
      split off: at most one more item (a stop item) can appear before the
      stream ends. */
  lemma {:induction false} DollarHoldsBack(g: Gen, events: seq<Event>)
    requires !g.done && '$' in g.buffer
    ensures var r := Run(g, events);
      && (r.done ==> |r.out| <= |g.out| + 1)
      && (!r.done ==> r.out == g.out && '$' in r.buffer)
    decreases |events|
  {
    if |events| > 0 {
      FeedKeepsDollar(g, events[0]);
      var h := Feed(g, events[0]);
      if !h.done {
        DollarHoldsBack(h, events[1..]);
      }
    }
  }

  /** One event, with a `$` in the buffer: no sentence is split off. */
  lemma FeedKeepsDollar(g: Gen, e: Event)
    requires !g.done && '$' in g.buffer
    ensures var h := Feed(g, e);
      && (h.done ==> |h.out| <= |g.out| + 1)
      && (!h.done ==> h.out == g.out && '$' in h.buffer)
  {
    match e
    case ModelStream(c) =>
      match ChunkText(c) {
        case None =>
        case Some(t) =>
          assert '$' in g.buffer + t;
      }
    case _ =>
  }

  /** So a turn whose buffer has taken in a `$` yields at most one more
      sentence, however much text follows. */
  lemma DollarTurnYieldsOnce(events: seq<Event>, picks: seq<nat>, k: nat)
    requires k <= |events|
    requires var g := Run(Start(picks), events[..k]); !g.done && '$' in g.buffer
    ensures |Segment(events, picks)| <= |Run(Start(picks), events[..k]).out| + 1
  {
    var g := Run(Start(picks), events[..k]);
    var r := Run(g, events[k..]);
    SplitRun(events, picks, k);
    DollarHoldsBack(g, events[k..]);
    FinishAddsAtMostOne(g, r);
    SegmentFinishes(events, picks, r);
  }

  /** The turn is the events before `k` followed by the rest. */
  lemma SplitRun(events: seq<Event>, picks: seq<nat>, k: nat)
    requires k <= |events|
    ensures Run(Start(picks), events) == Run(Run(Start(picks), events[..k]), events[k..])
  {
    assert events == events[..k] + events[k..];
    RunAppend(Start(picks), events[..k], events[k..]);
  }

  lemma FinishAddsAtMostOne(g: Gen, r: Gen)
    requires r.done ==> |r.out| <= |g.out| + 1
    requires !r.done ==> r.out == g.out
    ensures |Finish(r).out| <= |g.out| + 1
  {
  }

  lemma SegmentFinishes(events: seq<Event>, picks: seq<nat>, r: Gen)
    requires Run(Start(picks), events) == r
    ensures Segment(events, picks) == Finish(r).out
  {
  }

  lemma FillersAreDistinct()
    ensures forall i, j :: 0 <= i < j < |Fillers| ==> Fillers[i] != Fillers[j]
  {
    assert Fillers[0][0] == 'L' && Fillers[1][0] == 'I' && Fillers[2][0] == 'P';
  }

  /** A repeated element shows up twice in the multiset. */
  lemma RepeatCountsTwice(d: seq<string>, i: nat, j: nat)
    requires i < j < |d| && d[i] == d[j]
    ensures multiset(d)[d[i]] >= 2
  {
    assert d == d[..j] + [d[j]] + d[j + 1..];
    assert d[..j][i] == d[i];
    assert multiset(d) == multiset(d[..j]) + multiset{d[j]} + multiset(d[j + 1..]);
  }

  /** Fillers are drawn without replacement from a fresh pool of three: a
      turn draws at most three, each from the pool, no two alike. */
  lemma FillersDrawnWithoutReplacement(events: seq<Event>, picks: seq<nat>)
    ensures var d := Final(events, picks).draws;
      && |d| <= |Fillers|
      && (forall i :: 0 <= i < |d| ==> d[i] in Fillers)
      && (forall i, j :: 0 <= i < j < |d| ==> d[i] != d[j])
  {
    var r := Final(events, picks);
    var d := r.draws;
    assert multiset(d) + multiset(r.pool) == multiset(Fillers);
    assert multiset(d) <= multiset(Fillers);
    assert |multiset(d)| <= |multiset(Fillers)|;
    forall i | 0 <= i < |d| ensures d[i] in Fillers {
      assert d[i] in multiset(d);
    }
    FillersAreDistinct();
    assert multiset(Fillers) == multiset{Fillers[0], Fillers[1], Fillers[2]};
    forall i, j | 0 <= i < j < |d| ensures d[i] != d[j] {
      if d[i] == d[j] {
        RepeatCountsTwice(d, i, j);
      }
    }
  }
}

=== FILE: split_pattern.dfy ===
/** The sentence-boundary regular expression of the streaming segmenter,
    `(?<!\d)([.!?])\s*(?=[A-Z]|$)`, and Python's `re.search` over it. */
module SplitPattern {
  import opened Text
  import opened Wrappers

  predicate IsTerminal(c: char) {
    c == '.' || c == '!' || c == '?'
  }

  /** The lookahead `(?=[A-Z]|$)` at index `e`. Without MULTILINE, `$` holds
      at the end of the string and just before a newline that ends it. */
  predicate LookaheadHolds(s: string, e: nat) {
    || (e < |s| && IsAsciiUpper(s[e]))
    || e == |s|
    || (e + 1 == |s| && s[e] == '\n')
  }

  /** The pattern matches exactly `s[i..e]`: a terminal mark not preceded
      by a digit, then whitespace up to `e`, then the lookahead. */
  predicate RegexMatch(s: string, i: int, e: int) {
    && 0 <= i < |s|
    && IsTerminal(s[i])
    && (i == 0 || !IsDigit(s[i - 1]))
    && i + 1 <= e <= |s|
    && (forall k :: i + 1 <= k < e ==> IsSpace(s[k]))
    && LookaheadHolds(s, e)
  }

  /** A split point: a terminal mark not preceded by a digit whose
      following whitespace run ends at an upper-case letter or at the end. */
  predicate SplitPoint(s: string, i: int) {
    && 0 <= i < |s|
    && IsTerminal(s[i])
    && (i == 0 || !IsDigit(s[i - 1]))
    && (var e := LeadEnd(s, i + 1); e == |s| || IsAsciiUpper(s[e]))
  }

  /** The regex engine backtracks the greedy `\s*` from the longest run;
      the pattern matches at `i` exactly at split points, and no match there
      ends after the whole whitespace run, so the end it reports is the end
      of that run. (A shorter match exists only before a final newline.) */
  lemma GreedyMatch(s: string, i: int)
    ensures SplitPoint(s, i) ==> RegexMatch(s, i, LeadEnd(s, i + 1))
    ensures forall e :: RegexMatch(s, i, e) ==> SplitPoint(s, i) && e <= LeadEnd(s, i + 1)
  {
    forall e | RegexMatch(s, i, e)
      ensures SplitPoint(s, i) && e <= LeadEnd(s, i + 1)
    {
      var run := LeadEnd(s, i + 1);
      if e < run {
        assert IsSpace(s[e]);
      }
    }
  }

  /** Leftmost split point at or after `from`. */
  function FindSplit(s: string, from: nat): (r: Option<nat>)
    requires from <= |s|
    ensures r.Some? ==> from <= r.value < |s| && SplitPoint(s, r.value)
    ensures forall k :: from <= k < (if r.Some? then r.value else |s|) ==> !SplitPoint(s, k)
    decreases |s| - from
  {
    if from == |s| then None
    else if SplitPoint(s, from) then Some(from)
    else FindSplit(s, from + 1)
  }

  /** `re.search(pattern, s).end()`, or `None` when nothing matches. */
  function MatchEnd(s: string): (r: Option<nat>)
    ensures r.Some? ==> 1 <= r.value <= |s|
    ensures r.None? <==> forall i | 0 <= i < |s| :: !SplitPoint(s, i)
  {
    match FindSplit(s, 0)
    case None => None
    case Some(i) => Some(LeadEnd(s, i + 1))
  }

  /** `MatchEnd` is Python's search: `None` exactly when the pattern matches
      nowhere, and otherwise the end of the match the engine reports, that is
      the longest match at the leftmost position that matches at all. */
  lemma SearchSpec(s: string)
    ensures MatchEnd(s).None? <==> forall i, e :: !RegexMatch(s, i, e)
    ensures MatchEnd(s).Some? ==>
      var i := FindSplit(s, 0).value;
      var e := MatchEnd(s).value;
      && 1 <= e <= |s|
      && RegexMatch(s, i, e)
      && (forall e' :: RegexMatch(s, i, e') ==> e' <= e)
      && (forall k, e' :: 0 <= k < i ==> !RegexMatch(s, k, e'))
  {
    forall i, e | RegexMatch(s, i, e) ensures SplitPoint(s, i) {
      GreedyMatch(s, i);
    }
    match FindSplit(s, 0)
    case None =>
    case Some(i) =>
      GreedyMatch(s, i);
  }
}

=== FILE: text.dfy ===
/** Python `str` operations the core relies on, with Python's semantics:
    `sub in s`, `s.replace(old, new)`, `s.strip()` and `s.split(sep)[-1]`.
    Strings are `seq<char>`; no normalisation or case folding happens. */
module Text {

  /** The characters `str.strip()` and the regular-expression class `\s`
      treat as whitespace (CPython's `Py_UNICODE_ISSPACE`). */
  predicate IsSpace(c: char) {
    || ('\t' <= c <= '\r')
    || ('\U{1C}' <= c <= '\U{1F}')
    || c == ' '
    || c == '\U{85}'
    || c == '\U{A0}'
    || c == '\U{1680}'
    || ('\U{2000}' <= c <= '\U{200A}')
    || c == '\U{2028}'
    || c == '\U{2029}'
    || c == '\U{202F}'
    || c == '\U{205F}'
    || c == '\U{3000}'
  }

  /** The regular-expression class `\d`, restricted to ASCII digits. */
  predicate IsDigit(c: char) {
    '0' <= c <= '9'
  }

  /** The regular-expression class `[A-Z]`. */
  predicate IsAsciiUpper(c: char) {
    'A' <= c <= 'Z'
  }

  predicate AllSpace(s: string) {
    forall i :: 0 <= i < |s| ==> IsSpace(s[i])
  }

  /** No whitespace at either end: what `strip()` leaves behind. */
  predicate IsStripped(s: string) {
    |s| == 0 || (!IsSpace(s[0]) && !IsSpace(s[|s| - 1]))
  }

  predicate StartsWith(s: string, p: string) {
    |p| <= |s| && s[..|p|] == p
  }

  /** `p` occurs in `s` starting at index `i`. */
  predicate OccursAt(s: string, p: string, i: int) {
    0 <= i && i + |p| <= |s| && s[i..i + |p|] == p
  }

  /** Python's `p in s`, scanning from the left. */
  predicate Contains(s: string, p: string)
    ensures Contains(s, p) ==> |p| <= |s|
    ensures StartsWith(s, p) ==> Contains(s, p)
    decreases |s|
  {
    StartsWith(s, p) || (|s| > 0 && Contains(s[1..], p))
  }

  lemma TailSlice(s: string, j: int, n: nat)
    requires 0 <= j && j + n + 1 <= |s|
    ensures s[1..][j..j + n] == s[j + 1..j + 1 + n]
  {
  }

  lemma {:induction false} ContainsIff(s: string, p: string)
    ensures Contains(s, p) <==> exists i :: OccursAt(s, p, i)
    decreases |s|
  {
    if StartsWith(s, p) {
      assert OccursAt(s, p, 0);
    } else if |s| == 0 {
    } else {
      ContainsIff(s[1..], p);
      if i :| OccursAt(s, p, i) {
        TailSlice(s, i - 1, |p|);
        assert OccursAt(s[1..], p, i - 1);
      }
      if j :| OccursAt(s[1..], p, j) {
        TailSlice(s, j, |p|);
        assert OccursAt(s, p, j + 1);
      }
    }
  }

  /** A pattern longer than `s` cannot occur in it. */
  lemma ShortNotContains(s: string, p: string)
    requires |s| < |p|
    ensures !Contains(s, p)
  {
    ContainsIff(s, p);
  }

  /** A pattern with a character that never appears in `s` cannot occur. */
  lemma CharAbsentNotContains(s: string, p: string, j: nat)
    requires j < |p| && p[j] !in s
    ensures !Contains(s, p)
  {
    ContainsIff(s, p);
  }

  /** What does not occur in `s` does not occur in a prefix of it. */
  lemma NotContainsPrefix(s: string, p: string, n: nat)
    requires n <= |s| && !Contains(s, p)
    ensures !Contains(s[..n], p)
  {
    ContainsIff(s, p);
    ContainsIff(s[..n], p);
    forall i | OccursAt(s[..n], p, i) ensures OccursAt(s, p, i) {
      assert s[..n][i..i + |p|] == s[i..i + |p|];
    }
  }

  lemma OccursInSuffix(s: string, p: string, f: nat, j: nat)
    requires f <= |s|
    ensures OccursAt(s[f..], p, j) <==> OccursAt(s, p, f + j)
  {
    if j + |p| <= |s| - f {
      assert s[f..][j..j + |p|] == s[f + j..f + j + |p|];
    }
  }

  /** Python's `s.replace(p, rep)` for a non-empty `p`: occurrences are
      found left to right and do not overlap; the result is not rescanned. */
  function ReplaceAll(s: string, p: string, rep: string): (r: string)
    requires |p| > 0
    ensures |rep| <= |p| ==> |r| <= |s|
    decreases |s|
  {
    if StartsWith(s, p) then rep + ReplaceAll(s[|p|..], p, rep)
    else if |s| == 0 then ""
    else [s[0]] + ReplaceAll(s[1..], p, rep)
  }

  lemma {:induction false} ReplaceAbsent(s: string, p: string, rep: string)
    requires |p| > 0 && !Contains(s, p)
    ensures ReplaceAll(s, p, rep) == s
    decreases |s|
  {
    if |s| > 0 {
      ReplaceAbsent(s[1..], p, rep);
      assert [s[0]] + s[1..] == s;
    }
  }

  /** The first index at or after `i` that does not hold whitespace. */
  function LeadEnd(s: string, i: nat): (a: nat)
    requires i <= |s|
    ensures i <= a <= |s|
    ensures forall k :: i <= k < a ==> IsSpace(s[k])
    ensures a < |s| ==> !IsSpace(s[a])
    decreases |s| - i
  {
    if i < |s| && IsSpace(s[i]) then LeadEnd(s, i + 1) else i
  }

  /** Walking back from `j` towards `lo` over whitespace. */
  function TrailStart(s: string, lo: nat, j: nat): (b: nat)
    requires lo <= j <= |s|
    ensures lo <= b <= j
    ensures forall k :: b <= k < j ==> IsSpace(s[k])
    ensures b > lo ==> !IsSpace(s[b - 1])
    decreases j
  {
    if j > lo && IsSpace(s[j - 1]) then TrailStart(s, lo, j - 1) else j
  }

  /** Where the slice kept by `strip()` begins. */
  function StripStart(s: string): nat
    ensures StripStart(s) <= |s|
  {
    LeadEnd(s, 0)
  }

  /** Python's `s.strip()`: whitespace is dropped from the left end, then
      from the right end. */
  function Strip(s: string): (r: string)
    ensures IsStripped(r)
    ensures |r| <= |s|
    ensures r == [] <==> AllSpace(s)
  {
    var a := LeadEnd(s, 0);
    var b := TrailStart(s, a, |s|);
    assert b > a ==> s[a..b][0] == s[a] && s[a..b][b - a - 1] == s[b - 1];
    assert a == |s| ==> AllSpace(s);
    s[a..b]
  }

  /** `strip()` keeps one contiguous slice, with only whitespace on either side. */
  lemma StripSlice(s: string)
    ensures var r := Strip(s); var i := StripStart(s);
      OccursAt(s, r, i) && AllSpace(s[..i]) && AllSpace(s[i + |r|..])
  {
  }

  /** A string already without surrounding whitespace is left alone. */
  lemma StripStripped(s: string)
    requires IsStripped(s)
    ensures Strip(s) == s
  {
    StripSlice(s);
  }

  lemma StripIdempotent(s: string)
    ensures Strip(Strip(s)) == Strip(s)
  {
    StripStripped(Strip(s));
  }

  /** The scan behind Python's `s.split(sep)`: `start` is where the current
      piece began, `i` the next index tried; the result is where the last
      piece begins. */
  function SplitStart(s: string, sep: string, i: nat, start: nat): (f: nat)
    requires |sep| > 0 && start <= i <= |s|
    ensures start <= f <= |s|
    decreases |s| - i
  {
    if i + |sep| > |s| then start
    else if OccursAt(s, sep, i) then SplitStart(s, sep, i + |sep|, i + |sep|)
    else SplitStart(s, sep, i + 1, start)
  }

  /** Python's `s.split(sep)[-1]`. */
  function LastPiece(s: string, sep: string): string
    requires |sep| > 0
  {
    s[SplitStart(s, sep, 0, 0)..]
  }

  lemma {:induction false} SplitStartClean(s: string, sep: string, i: nat, start: nat)
    requires |sep| > 0 && start <= i <= |s|
    requires forall k :: start <= k < i ==> !OccursAt(s, sep, k)
    ensures forall k :: SplitStart(s, sep, i, start) <= k ==> !OccursAt(s, sep, k)
    decreases |s| - i
  {
    if i + |sep| > |s| {
      forall k | start <= k ensures !OccursAt(s, sep, k) {
        if k >= i {
          assert k + |sep| > |s|;
        }
      }
    } else if OccursAt(s, sep, i) {
      SplitStartClean(s, sep, i + |sep|, i + |sep|);
    } else {
      SplitStartClean(s, sep, i + 1, start);
    }
  }

  /** `f` is 0 or just past an occurrence of `sep`. */
  predicate AfterSep(s: string, sep: string, f: nat) {
    f == 0 || (f >= |sep| && OccursAt(s, sep, f - |sep|))
  }

  lemma {:induction false} SplitStartAfterSep(s: string, sep: string, i: nat, start: nat)
    requires |sep| > 0 && start <= i <= |s|
    requires AfterSep(s, sep, start)
    ensures AfterSep(s, sep, SplitStart(s, sep, i, start))
    decreases |s| - i
  {
    if i + |sep| > |s| {
    } else if OccursAt(s, sep, i) {
      var j := i + |sep|;
      assert j - |sep| == i;
      assert AfterSep(s, sep, j);
      SplitStartAfterSep(s, sep, j, j);
    } else {
      SplitStartAfterSep(s, sep, i + 1, start);
    }
  }

  /** The scan's start is past every occurrence of `sep` and, unless it is
      0, right after one. */
  lemma SplitStartSpec(s: string, sep: string)
    requires |sep| > 0
    ensures var f := SplitStart(s, sep, 0, 0);
      && (forall k :: f <= k ==> !OccursAt(s, sep, k))
      && (f == 0 || (f >= |sep| && OccursAt(s, sep, f - |sep|)))
  {
    SplitStartClean(s, sep, 0, 0);
    SplitStartAfterSep(s, sep, 0, 0);
  }

  /** The last piece of a split is a suffix of `s` in which `sep` no longer
      occurs: the whole of `s` when `sep` never occurs, and otherwise
      exactly what follows an occurrence of `sep`. */
  lemma LastPieceSpec(s: string, sep: string)
    requires |sep| > 0
    ensures var r := LastPiece(s, sep);
      && |r| <= |s| && r == s[|s| - |r|..]
      && !Contains(r, sep)
      && (!Contains(s, sep) <==> r == s)
      && (Contains(s, sep) ==> |r| + |sep| <= |s| && s[|s| - |r| - |sep|..|s| - |r|] == sep)
  {
    var f := SplitStart(s, sep, 0, 0);
    SplitStartSpec(s, sep);
    LastPieceClean(s, sep, f);
    if f == 0 {
      NoOccurrenceNotContains(s, sep);
    } else {
      OccurrenceContains(s, sep, f - |sep|);
    }
  }

  lemma LastPieceClean(s: string, sep: string, f: nat)
    requires f <= |s|
    requires forall k :: f <= k ==> !OccursAt(s, sep, k)
    ensures !Contains(s[f..], sep)
  {
    forall j | 0 <= j ensures !OccursAt(s[f..], sep, j) {
      OccursInSuffix(s, sep, f, j);
    }
    NoOccurrenceNotContains(s[f..], sep);
  }

  lemma NoOccurrenceNotContains(s: string, p: string)
    requires forall k :: 0 <= k ==> !OccursAt(s, p, k)
    ensures !Contains(s, p)
  {
    ContainsIff(s, p);
  }

  lemma OccurrenceContains(s: string, p: string, k: int)
    requires OccursAt(s, p, k)
    ensures Contains(s, p)
  {
    ContainsIff(s, p);
  }

  lemma {:induction false} SplitStartNone(s: string, sep: string, i: nat, start: nat)
    requires |sep| > 0 && start <= i <= |s|
    requires forall k :: i <= k ==> !OccursAt(s, sep, k)
    ensures SplitStart(s, sep, i, start) == start
    decreases |s| - i
  {
    if i + |sep| <= |s| {
      assert !OccursAt(s, sep, i);
      SplitStartNone(s, sep, i + 1, start);
    }
  }

  /** Splitting a string that starts with `sep` and has no further
      occurrence of it leaves what follows `sep` as the last piece. */
  lemma LastPieceAfterSep(sep: string, x: string)
    requires |sep| > 0 && !Contains(x, sep)
    ensures LastPiece(sep + x, sep) == x
  {
    var s := sep + x;
    assert s[0..|sep|] == sep;
    assert s[|sep|..] == x;
    ContainsIff(x, sep);
    forall k | |sep| <= k ensures !OccursAt(s, sep, k) {
      OccursInSuffix(s, sep, |sep|, k - |sep|);
    }
    SplitStartNone(s, sep, |sep|, |sep|);
  }
}

=== FILE: wrappers.dfy ===
/** Failure-carrying datatypes shared by the rest of the model: an absent
    Python value (`None`, a missing key) is `None`, a raised exception is
    `Failure`. */
module Wrappers {

  datatype Option<+T> = None | Some(value: T) {
    function GetOr(default: T): T {
      match this
      case Some(v) => v
      case None => default
    }
  }

  datatype Result<+R, +E> = Success(value: R) | Failure(error: E)
}
